=== FILE: README.md ===
# foonathan/memory allocator composition, modelled in Dafny

This project models the allocator-composition layer of foonathan/memory, a C++
library of composable raw allocators:

- **block stack and block pool** (`detail::block_list_impl`, `detail::block_list`).
  The stack is an intrusive LIFO list of memory blocks with a `{prev, size}` header
  in front of each. The pool keeps a `used` stack and a `free` cache, counts live
  blocks, and doubles the block size it requests upstream after every cache miss.
  The upstream allocator is modelled by an event log of `Allocated`/`Released`
  blocks stored in the pool.
- **size-class index** (`log2_access_policy`): ceiling log2 of a size, in both the
  count-leading-zeros form and the shift-loop form, and the class size `1 << index`.
- **errors** (`allocator_info`, `out_of_memory`, `bad_allocation_size`,
  `detail::check_allocation_size`). A raise is a `Signal`: the library's exception
  is `Thrown`, the program is `Aborted`, or the handler throws an exception of its
  own (`HandlerThrew`), depending on how the installed handler reacts.
- **handler registry** (`src/debugging.cpp`, and the two exception handlers of
  `error.hpp`): one slot per failure kind, with `set_*`/`get_*` operations and
  their defaults.
- **allocator_traits**: an allocator is a record of the members it provides. The
  traits decide which member, std-style function or fallback serves each of the
  seven operations, and how statefulness is decided.
- **allocator_storage** and its policies (`direct_storage`, `reference_storage`,
  and the type-erased `reference_storage<any_allocator>`). Every operation is
  forwarded, under the storage's mutex, to the object `get_allocator()` designates.
- **threading**: `no_mutex`, `mutex_for`, `mutex_storage` and `locked_allocator`
  ownership.

The modules are:

- `Wrappers`: Option/Result/Outcome.
- `Sizes`: `std::size_t` as a 64-bit unsigned type with explicit wrap-around.
- `Debugging`
- `Errors`
- `SizeClass`
- `BlockStack`
- `BlockPool`
- `AllocatorTraits`
- `Threading`
- `AllocatorStorage`

Modelling choices:

- `std::size_t` is 64 bits wide (LP64), so the block header is 16 bytes. `cur_block_size_ *= 2`, `size - sizeof(node)`, `++size_`/`--size_` and `count * size` wrap modulo 2^64, as they do in C++. A block smaller than the header is not guarded against; see `BlockPool.Allocate` under "Left out".
- Addresses are abstract (`Addr(region, offset)`). The memory an upstream allocator returns is a parameter of `BlockPool.Allocate`, as is a raise in its place.
- A failed `FOONATHAN_MEMORY_ASSERT` is a `Failure(AssertionFailed(...))` result.
- A raised exception, or an abort, is a `Signal` value.
- Overload resolution, SFINAE and `static_assert` are resolved choices. A type that would not compile is either excluded by a precondition (`IsRawAllocator`) or reported as a `ConceptError`. The one exception is the `is_stateful` decision, where the code rejects more types than it evidently means to (see Findings); the model follows the intended decision and keeps the written one beside it.
- An allocator type is a `Capabilities` record. An allocator object is an `Instance` of that record at an address, or a temporary.

Where the documented behaviour and the code differ, the model follows the code:

- Stateless allocators are documented as never needing a lock. Under `reference_storage<any_allocator>`, however, the erased wrapper declares `is_stateful = std::true_type` (include/foonathan/memory/allocator_storage.hpp:407). So an erased storage locks the requested mutex even around a stateless allocator (`AllocatorStorage.ErasedAlwaysLocks`).
- The block size is documented as non-decreasing. `cur_block_size_ *= growth_factor` is, however, an unchecked `std::size_t` multiplication, so it wraps after enough doublings. The model wraps too (`Sizes.Mul`). `BlockPool.GrowthFromFreshPool` states the doubling for sizes where it fits.
- The size-class round trip is documented as exact at powers of two. `size_from_index` shifts an `int`, so this only holds below 2^31 (see Findings).

## Model

| member | source | states |
|---|---|---|
| BlockStack.ImplOffset | src/detail/block_list.cpp:23-26 | the implementation offset is the header size, positive |
| BlockStack.Push | src/detail/block_list.cpp:28-34 | the header records the full size and becomes the head above the old list; the memory pointer advances by the header size, which is returned |
| BlockStack.Pop | src/detail/block_list.cpp:46-52 | fails with "stack underflow" exactly on an empty list; otherwise returns the header address and the total pushed size and leaves the rest |
| BlockStack.Top | src/detail/block_list.cpp:54-58 | fails exactly on an empty list; otherwise gives the address past the header and the usable size, list unchanged |
| BlockStack.Transfer | src/detail/block_list.cpp:36-44 | fails exactly when the other list is empty; otherwise the other list loses exactly its head, this list gains the same node, and the usable block is returned |
| BlockStack.Move | include/foonathan/memory/detail/block_list.hpp:49-53 | the target takes the nodes and the source is empty |
| BlockStack.PopAfterPush | src/detail/block_list.cpp:28-52 | pop undoes push: it returns the header address and the total size and restores the list |
| BlockStack.Lifo | src/detail/block_list.cpp:28-52 | push A, push B, then pop gives B and then A |
| BlockStack.TopAfterPush | src/detail/block_list.cpp:28-58 | top after push is the block push handed back, with size minus the header |
| BlockStack.TransferRoundTrip | src/detail/block_list.cpp:36-44 | moving a head across and back restores both lists |
| BlockStack.TransferPreservesHeaders | src/detail/block_list.cpp:36-44 | a transfer only relinks a header: the multiset of both lists' nodes together is unchanged |
| BlockStack.MovedFromIsEmpty | include/foonathan/memory/detail/block_list.hpp:49-87 | a moved-from list is empty, so pop and top on it fail with stack underflow |
| BlockPool.New | include/foonathan/memory/detail/block_list.hpp:106-108 | a new pool is valid and empty, with no upstream traffic and the given first block size |
| BlockPool.Allocate | include/foonathan/memory/detail/block_list.hpp:148-165 | a hit reuses the free head with no upstream call and no growth; a miss requests `cur_block_size_` upstream, returns size minus header, and doubles the size; an upstream raise propagates; the count rises by one; the result is the new top |
| BlockPool.Deallocate | include/foonathan/memory/detail/block_list.hpp:170-175 | fails exactly with no used block; otherwise the used head moves onto the free stack, nothing is released, and the count falls by one |
| BlockPool.PoolTop | include/foonathan/memory/detail/block_list.hpp:187-190 | fails exactly with no used block; otherwise it is the usable part of the used head |
| BlockPool.ReleaseAll | include/foonathan/memory/detail/block_list.hpp:195-200 | popping a stack to empty appends one release per node, with the node's total size, and leaves the allocations untouched |
| BlockPool.ShrinkToFit | include/foonathan/memory/detail/block_list.hpp:193-201 | every free block is released with its total size; the used stack and counters are unchanged; validity is kept |
| BlockPool.Destroy | include/foonathan/memory/detail/block_list.hpp:118-127 | on a valid pool, the complete upstream log frees exactly the multiset it allocated |
| BlockPool.MovePool | include/foonathan/memory/detail/block_list.hpp:110-116 | the target takes the stacks and counters; the source is empty with a zero count |
| BlockPool.AllocatePreservesValid | include/foonathan/memory/detail/block_list.hpp:148-165 | allocate keeps the count equal to the used blocks and keeps upstream allocations balanced against releases plus the held blocks |
| BlockPool.DeallocatePreservesValid | include/foonathan/memory/detail/block_list.hpp:170-175 | deallocate keeps the same invariant |
| BlockPool.DestroyReleasesEverything | include/foonathan/memory/detail/block_list.hpp:118-127 | after destruction every upstream allocation has a matching release |
| BlockPool.DeallocateThenAllocate | include/foonathan/memory/detail/block_list.hpp:160-175 | allocating right after a deallocate gives back the same block, with the same size, and restores the pool exactly |
| BlockPool.AllocateHitThenDeallocate | include/foonathan/memory/detail/block_list.hpp:160-175 | a cache hit followed by a deallocate restores the pool exactly |
| BlockPool.NextBlockSize | include/foonathan/memory/detail/block_list.hpp:204-207 | no ensures of its own: BlockPool.NextBlockSizeIsNextMiss states that it is the usable size the next miss returns |
| BlockPool.PoolSize | include/foonathan/memory/detail/block_list.hpp:209-212 | no ensures of its own: BlockPool.SizeCountsUsedBlocks and BlockPool.AllocatePreservesValid state that it counts the used blocks |
| BlockPool.NextBlockSizeIsNextMiss | include/foonathan/memory/detail/block_list.hpp:204-207 | next_block_size is the usable size the next cache miss returns |
| BlockPool.GrowthFromFreshPool | include/foonathan/memory/detail/block_list.hpp:150-158 | from a fresh pool the first miss requests `b` and returns `b` minus the header; the next miss requests `2b` |
| BlockPool.SizeCountsUsedBlocks | include/foonathan/memory/detail/block_list.hpp:154-212 | size() rises by one on each allocate and falls by one on each deallocate |
| BlockPool.ShrinkToFitIdempotent | include/foonathan/memory/detail/block_list.hpp:193-201 | a second shrink_to_fit changes nothing |
| BlockPool.DeallocationsOnlyCache | include/foonathan/memory/detail/block_list.hpp:167-175 | n deallocates on an empty cache succeed, send nothing upstream, and move exactly the top n used blocks to the cache |
| BlockPool.ShrinkAfterDeallocations | include/foonathan/memory/detail/block_list.hpp:170-201 | n deallocates followed by shrink_to_fit release exactly n blocks upstream, keep the earlier log, and leave the other used blocks in place |
| BlockPool.MovedFromReleasesNothing | include/foonathan/memory/detail/block_list.hpp:110-127 | destroying a moved-from pool releases nothing upstream, and moving keeps both pools valid |
| SizeClass.Pow2 | src/detail/free_list_array.cpp:65-68 | a helper for the value of `1 << index`; its own contract only says it is positive. SizeClass.SizeFromIndex, SizeClass.IndexOfPow2 and SizeClass.SizeFromIndexCoversSize state what it means for the size classes |
| SizeClass.CountLeadingZeros | src/detail/free_list_array.cpp:36-40 | for non-zero n, `__builtin_clzl` is the r below 64 with 2^(63-r) <= n < 2^(64-r) |
| SizeClass.ILog2 | src/detail/free_list_array.cpp:36-40 | no ensures of its own: SizeClass.ILog2IsCeilLog2 states that the clz formula is the ceiling of log2, and SizeClass.ILog2VariantsAgree that the loop computes the same |
| SizeClass.ILog2Loop | src/detail/free_list_array.cpp:48-55 | the shift loop computes the clz formula's value for every non-zero input, and 0 for 0 |
| SizeClass.IndexFromSize | src/detail/free_list_array.cpp:59-63 | fails exactly for size 0; otherwise r is the ceiling log2: size <= 2^r and 2^(r-1) < size |
| SizeClass.SizeFromIndexAsWritten | src/detail/free_list_array.cpp:65-68 | `1 << index` on `int` is defined exactly for index below 31 |
| SizeClass.SizeFromIndex | src/detail/free_list_array.cpp:65-68 | the class size is 2^index, defined exactly for index below 64 |
| SizeClass.PowerOfTwoMeaning | src/detail/free_list_array.cpp:18-22 | `is_power_of_two` holds exactly for 0 and the powers 2^k |
| SizeClass.ILog2IsCeilLog2 | src/detail/free_list_array.cpp:24-46 | the clz formula is the ceiling of log2 |
| SizeClass.CeilLog2Unique | src/detail/free_list_array.cpp:24-25 | the ceiling-log2 bracket determines the index uniquely |
| SizeClass.ILog2VariantsAgree | src/detail/free_list_array.cpp:30-55 | the two ilog2 variants agree on every non-zero input |
| SizeClass.IndexFromSizeMonotone | src/detail/free_list_array.cpp:59-63 | the index never decreases as the size grows |
| SizeClass.SizeFromIndexCoversSize | src/detail/free_list_array.cpp:59-68 | the class size is at least the size, and equals it exactly for powers of two |
| SizeClass.IndexOfPow2 | src/detail/free_list_array.cpp:59-68 | 2^k has index k, and size_from_index(k) gives it back |
| SizeClass.IndexIsCeilLog2 | src/detail/free_list_array.cpp:59-63 | any k in the ceiling-log2 bracket of a non-zero size is that size's index |
| SizeClass.IndexExamples | src/detail/free_list_array.cpp:24-61 | 0 is rejected; 1, 2, 3, 4, 5 and 1024 have indices 0, 1, 2, 2, 3 and 10 |
| SizeClass.AsWrittenLosesLargeClasses | src/detail/free_list_array.cpp:65-68 | size 2^31 gets index 31, whose class size `1 << 31` is undefined on `int` |
| Errors.AfterHandler | include/foonathan/memory/error.hpp:67-91 | once the handler has run: it returned exactly when the library's exception is thrown, with the failure unchanged; it aborted exactly when the program ends; it threw exactly when its own exception propagates instead |
| Errors.RaiseOutOfMemory | include/foonathan/memory/error.hpp:67-91 | the installed handler runs first; out_of_memory is thrown with its fields exactly when the handler returns, the program aborts exactly when it aborts, and the handler's own exception propagates exactly when it throws one |
| Errors.RaiseBadAllocationSize | include/foonathan/memory/error.hpp:127-153 | the same three outcomes for bad_allocation_size, carrying the passed and supported values |
| Errors.ThrowingHandlerReplacesException | include/foonathan/memory/error.hpp:127-153 | a handler installed for one kind that throws its own exception makes that kind's next raise propagate it, and leaves the other kind's raise as it was |
| Errors.CheckAllocationSize | include/foonathan/memory/error.hpp:194-199 | passes exactly when passed <= supported; otherwise raises bad_allocation_size with those values |
| Errors.InfoEquality | include/foonathan/memory/error.hpp:43-55 | allocator_info equality is identity equality, whatever the names; `!=` is its negation; it is an equivalence |
| Errors.AccessorsReturnConstructorArguments | include/foonathan/memory/error.hpp:97-177 | each accessor returns its constructor argument |
| Errors.CheckIsUpperBound | include/foonathan/memory/error.hpp:194-199 | lowering a passing size keeps it passing; raising a failing size keeps it failing |
| Errors.DefaultHandlerThrowsBadSize | include/foonathan/memory/error.hpp:127-199 | with the default handler, an oversized request is thrown with its values |
| Debugging.Initial | src/debugging.cpp:27-76 | every slot starts with its default handler |
| Debugging.Installed | src/debugging.cpp:30-33 | a null handler installs the default; any other is installed as given |
| Debugging.Set | src/debugging.cpp:30-87 | returns the previous handler, installs the new one (the default for null), and leaves the other slots unchanged |
| Debugging.SetNullRestoresDefault | src/debugging.cpp:32-81 | after set(null), get returns the default: a slot is never empty |
| Debugging.SetRestore | src/debugging.cpp:30-38 | setting the returned previous handler back restores the registry |
| Debugging.LastSetWins | src/debugging.cpp:30-87 | after any sequence of sets, each slot holds the last handler installed in it |
| Debugging.DefaultReactions | src/debugging.cpp:19-75 | the default leak handler returns; the invalid-pointer and buffer-overflow defaults abort |
| Debugging.Get | src/debugging.cpp:35-87 | get_*_handler returns the slot's handler; no ensures of its own: Debugging.Set and Debugging.LastSetWins state what it returns after any sequence of sets |
| Debugging.DefaultReaction | src/debugging.cpp:19-75 | what each default handler does; no ensures of its own: Debugging.DefaultReactions states it for the three debugging handlers, Errors.DefaultHandlerThrowsBadSize for bad_allocation_size |
| Debugging.Invoke | src/debugging.cpp:19-75 | calling the installed handler; no ensures of its own: Debugging.SetNullRestoresDefault, Debugging.DefaultReactions and Errors.ThrowingHandlerReplacesException state its outcome |
| AllocatorTraits.MemberTakesPriority | include/foonathan/memory/allocator_traits.hpp:26-210 | a member operation is always the one called, with unchanged arguments |
| AllocatorTraits.ArrayFallsBackToNode | include/foonathan/memory/allocator_traits.hpp:143-156 | without allocate_array, an array request is allocate_node of count*size |
| AllocatorTraits.ArrayReleaseFallsBackToNode | include/foonathan/memory/allocator_traits.hpp:158-171 | without deallocate_array, the release is deallocate_node of count*size |
| AllocatorTraits.StdStyleIgnoresAlignment | include/foonathan/memory/allocator_traits.hpp:108-135 | a std-style allocator gets allocate(size) and deallocate(ptr, size); the alignment is dropped |
| AllocatorTraits.MissingOperationsAreRejected | include/foonathan/memory/allocator_traits.hpp:114-171 | a type providing neither form of a node operation is rejected, and allocate_array and deallocate_array are each rejected exactly when they have no member and their node fallback is rejected |
| AllocatorTraits.QueryDefaults | include/foonathan/memory/allocator_traits.hpp:173-210 | max_node_size defaults to `size_t(-1)`; max_array_size defaults to the resolved max_node_size; max_alignment defaults to `detail::max_alignment` |
| AllocatorTraits.StatefulnessDecision | include/foonathan/memory/allocator_traits.hpp:69-97 | the intended decision: an explicit typedef wins; otherwise a non-empty type is stateful and an empty, default-constructible one is stateless |
| AllocatorTraits.IsStateful | include/foonathan/memory/allocator_traits.hpp:69-97 | the intended decision; no ensures of its own: AllocatorTraits.StatefulnessDecision states the typedef-first, then emptiness, decision and the rejection of empty types that cannot be default-constructed |
| AllocatorTraits.IsStatefulAsWritten | include/foonathan/memory/allocator_traits.hpp:79-97 | as written: the type is rejected exactly when it is empty and cannot be default-constructed, whatever it declares; otherwise the decision is the intended one |
| AllocatorTraits.AsWrittenTypedefCannotRescue | include/foonathan/memory/allocator_traits.hpp:79-97 | the written and intended decisions differ exactly for an empty type that cannot be default-constructed and declares `is_stateful` |
| AllocatorTraits.AsWrittenRejectsDeclaredStateful | include/foonathan/memory/allocator_traits.hpp:79-97 | an empty, non-default-constructible allocator declaring `is_stateful = std::true_type` is rejected as written, and is stateful as intended |
| AllocatorTraits.AllocateNodeCall | include/foonathan/memory/allocator_traits.hpp:99-120 | no ensures of its own: AllocatorTraits.MemberTakesPriority, AllocatorTraits.StdStyleIgnoresAlignment and AllocatorTraits.MissingOperationsAreRejected state the member, std-style and error ranking |
| AllocatorTraits.DeallocateNodeCall | include/foonathan/memory/allocator_traits.hpp:122-141 | no ensures of its own: the same three lemmas state the member, std-style and error ranking for deallocate_node |
| AllocatorTraits.AllocateArrayCall | include/foonathan/memory/allocator_traits.hpp:143-156 | no ensures of its own: AllocatorTraits.MemberTakesPriority and AllocatorTraits.ArrayFallsBackToNode state the member call and the count*size fallback |
| AllocatorTraits.DeallocateArrayCall | include/foonathan/memory/allocator_traits.hpp:158-171 | no ensures of its own: AllocatorTraits.MemberTakesPriority and AllocatorTraits.ArrayReleaseFallsBackToNode state the member call and the count*size fallback |
| AllocatorTraits.MaxNodeSizeOf | include/foonathan/memory/allocator_traits.hpp:173-184 | no ensures of its own: AllocatorTraits.QueryDefaults states the `size_t(-1)` default and AllocatorTraits.MemberTakesPriority the member's answer |
| AllocatorTraits.MaxArraySizeOf | include/foonathan/memory/allocator_traits.hpp:186-197 | no ensures of its own: AllocatorTraits.QueryDefaults states the fallback to max_node_size |
| AllocatorTraits.MaxAlignmentOf | include/foonathan/memory/allocator_traits.hpp:199-210 | no ensures of its own: AllocatorTraits.QueryDefaults states the `detail::max_alignment` default |
| AllocatorTraits.Apply | include/foonathan/memory/allocator_traits.hpp:217-266 | the seven static members of allocator_traits; no ensures of its own: AllocatorTraits.NodeOperationsSuffice and the lemmas above state what each resolves to |
| AllocatorTraits.NodeOperationsSuffice | include/foonathan/memory/allocator_traits.hpp:99-210 | given both node operations, all seven operations resolve, and exactly the four allocation operations become calls |
| Threading.MutexFor | include/foonathan/memory/threading.hpp:53-56 | the real mutex is chosen exactly for a stateful allocator with a real mutex requested |
| Threading.LockUnlockBalance | include/foonathan/memory/threading.hpp:26-38 | no_mutex's lock and unlock do nothing and its try_lock succeeds; a lock/unlock pair leaves a mutex as free as it was |
| Threading.Lock | include/foonathan/memory/threading.hpp:26-95 | no ensures of its own: Threading.LockUnlockBalance states that no_mutex's lock does nothing and that a lock/unlock pair leaves a mutex as free as it was |
| Threading.Unlock | include/foonathan/memory/threading.hpp:26-95 | no ensures of its own: Threading.LockUnlockBalance, as for Threading.Lock |
| Threading.TryLock | include/foonathan/memory/threading.hpp:31-34 | no ensures of its own: Threading.LockUnlockBalance states that no_mutex's try_lock succeeds and changes nothing |
| Threading.Release | include/foonathan/memory/threading.hpp:119-123 | no ensures of its own: Threading.MoveChainUnlocksOnce states that destroying a chain of moved objects unlocks exactly once |
| Threading.CopyMutexStorage | include/foonathan/memory/threading.hpp:64-65 | a copy-constructed mutex_storage has the same mutex type and an unheld mutex of its own |
| Threading.Acquire | include/foonathan/memory/threading.hpp:106-110 | constructing a locked_allocator locks the mutex once and points at the allocator |
| Threading.MoveLock | include/foonathan/memory/threading.hpp:112-117 | the target takes the mutex and the allocator; the source holds neither |
| Threading.Deref | include/foonathan/memory/threading.hpp:127-137 | dereferencing fails exactly on a moved-from object, and otherwise gives the allocator |
| Threading.MoveChain | include/foonathan/memory/threading.hpp:112-117 | n moves leave n + 1 objects |
| Threading.MoveChainUnlocksOnce | include/foonathan/memory/threading.hpp:112-123 | over any chain of moves only the last object owns the lock, so destroying them all unlocks exactly once |
| Threading.LockedAllocatorScope | include/foonathan/memory/threading.hpp:106-123 | lock, any number of moves, and destruction leave the mutex locked once, unlocked once, and free |
| Threading.DerefAfterMove | include/foonathan/memory/threading.hpp:112-137 | the moved-from object cannot be dereferenced, and the target gives the same allocator |
| AllocatorStorage.MakeRefImpl | include/foonathan/memory/allocator_storage.hpp:313-345 | a stateful allocator's address is stored and get returns that object; a stateless one stores nothing and get returns a temporary |
| AllocatorStorage.MakeDirect | include/foonathan/memory/allocator_storage.hpp:209-253 | the direct storage embeds the allocator, get_allocator designates it, and the storage is well formed |
| AllocatorStorage.MakeReference | include/foonathan/memory/allocator_storage.hpp:354-391 | the reference storage is built from reference_storage_impl of the allocator |
| AllocatorStorage.MakeAnyReference | include/foonathan/memory/allocator_storage.hpp:404-493 | the erased storage wraps the allocator in a reference_storage_impl and always uses the requested mutex |
| AllocatorStorage.Forward | include/foonathan/memory/allocator_storage.hpp:112-160 | each operation reaches get_allocator()'s object once, bracketed by one lock and one unlock exactly when the actual mutex is real |
| AllocatorStorage.GetAllocator | include/foonathan/memory/allocator_storage.hpp:169-178 | no ensures of its own: AllocatorStorage.MakeDirect, AllocatorStorage.ReferenceStorageTargets and AllocatorStorage.LockView state what it designates for each policy |
| AllocatorStorage.ToVirtual | include/foonathan/memory/allocator_storage.hpp:411-454 | no ensures of its own: AllocatorStorage.ErasedRouting states how the wrapper's public members reach the two virtual functions |
| AllocatorStorage.FromVirtual | include/foonathan/memory/allocator_storage.hpp:573-600 | no ensures of its own: AllocatorStorage.ErasedRouting states the count-1 test |
| AllocatorStorage.ErasedOp | include/foonathan/memory/allocator_storage.hpp:411-600 | no ensures of its own: AllocatorStorage.ErasedRouting and AllocatorStorage.ErasedRoutingInvisibleWithoutArrayMembers state the erased dispatch and when it is invisible |
| AllocatorStorage.Dispatch | include/foonathan/memory/allocator_storage.hpp:112-160 | no ensures of its own: AllocatorStorage.ForwardAppliesTraits states that each operation applies the traits operation to get_allocator()'s object |
| AllocatorStorage.Copy | include/foonathan/memory/allocator_storage.hpp:102-107 | a copy of a reference or erased storage is well formed, designates the same object, and has a mutex of the same type that nobody holds |
| AllocatorStorage.Clone | include/foonathan/memory/allocator_storage.hpp:568-571 | a clone designates the same object as the original |
| AllocatorStorage.Convert | include/foonathan/memory/allocator_storage.hpp:79-85 | the cross-policy constructor yields a well-formed storage of the target policy, with the same Mutex argument and a free mutex of its own |
| AllocatorStorage.LockView | include/foonathan/memory/allocator_storage.hpp:184-197 | lock() gives a locked_allocator that owns the lock, dereferences to get_allocator(), and has locked the storage's own mutex once more |
| AllocatorStorage.ForwardAppliesTraits | include/foonathan/memory/allocator_storage.hpp:112-160 | each operation applies the same traits operation to get_allocator()'s object with unchanged arguments and returns its result; the erased storage applies the erased dispatch first |
| AllocatorStorage.ForwardLocksOnce | include/foonathan/memory/allocator_storage.hpp:114-143 | replaying a forwarded call locks and unlocks a real mutex once each, and leaves no_mutex untouched |
| AllocatorStorage.StatelessNeedsNoLock | include/foonathan/memory/allocator_storage.hpp:45-55 | a stateless allocator held directly or by reference takes no lock |
| AllocatorStorage.ErasedAlwaysLocks | include/foonathan/memory/allocator_storage.hpp:404-408 | the erased wrapper counts as stateful, so it locks even around a stateless allocator |
| AllocatorStorage.ErasedRouting | include/foonathan/memory/allocator_storage.hpp:411-600 | node calls stay node calls; array calls with count 1 become node calls; other array calls stay; queries map to the matching query; the routing is idempotent |
| AllocatorStorage.ErasedRoutingInvisibleWithoutArrayMembers | include/foonathan/memory/allocator_storage.hpp:573-590 | without array members, the count-1 rerouting has the same effect as the traits' fallback |
| AllocatorStorage.ReferenceStorageTargets | include/foonathan/memory/allocator_storage.hpp:313-391 | a stateful reference returns its referent; a stateless one returns a temporary, so any two are interchangeable |
| AllocatorStorage.CopyForwardsAlike | include/foonathan/memory/allocator_storage.hpp:378-509 | copies of reference storages and clones of erased ones forward every operation identically: same object, same effect, same lock events |
| AllocatorStorage.ConvertKeepsTarget | include/foonathan/memory/allocator_storage.hpp:79-501 | a converted storage reaches the same object (stateful) or one of the same type (stateless), with the original's effect, after the erased dispatch where erased |
| AllocatorStorage.LockViewUnlocksOnce | include/foonathan/memory/allocator_storage.hpp:184-197 | the lock view locks the storage's mutex once and unlocks it once, however often it is moved, so a free mutex is free again afterwards |

## Left out

- `src/new_allocator.cpp`: a thin wrapper over `::operator new`. It is not modelled, and neither is `detail::try_allocate`.
- `test/aligned_allocator.cpp` exercises `aligned_allocator` and `memory_stack`, which are not part of this model.
- Real mutual exclusion and the atomic exchange of handler slots: locks are counters and slots are plain values, with no concurrency.
- `debug_fill`, and the `deallocate(used_to)` overload: they only change debug bytes. The overload's bookkeeping is that of `deallocate()`.
- Logging with `fprintf` and `std::abort` in the default handlers: a handler's effect is a `Reaction` (Continue, Terminate, or Throw of an exception identified by a number). The type of a thrown exception is not modelled.
- `src/error.cpp` is not part of this model. The `out_of_memory` and `bad_allocation_size` handler slots follow the contract documented in `error.hpp`.
- `block_list` move assignment swaps `cur_block_size_` with the moved-from object rather than with the temporary. No property is stated about it.
- `block_list_impl` move assignment is not modelled separately; it is a move followed by a swap.
- `allocator_storage` and storage-policy move construction/assignment are left out, and so is copy assignment. The copy constructors of the reference policies are modelled.
- AllocatorStorage.Copy: copies of a direct storage are not modelled, because `direct_storage` declares a move constructor, which deletes its copy constructor and with it that of `allocator_storage`.
- AllocatorStorage.Convert: conversion from a direct storage of a stateful allocator is not modelled, because `other.get_allocator()` is then a `const A&`, which neither `reference_storage<A>` (it needs `A&`) nor the erased wrapper (its two constructors coincide for `const A`) accepts.
- The allocator objects' own behaviour, including the pointers they return: a forwarded call is recorded as the call it makes.
- `allocator_type` rebinding of std allocators, EBO, placement new and the `static_assert`s on the erased wrapper's size are compile-time layout concerns.
- The debug-level `FOONATHAN_MEMORY_ASSERT` switch: assertions are always checked.
- AllocatorStorage.Convert: does not model building a plain `reference_storage` from an erased storage, because that does not compile.
- AllocatorStorage.Convert: the cross-policy constructor into `direct_storage` is not modelled. That would need a move-constructible allocator from a reference.
- BlockPool.Allocate: a block size below the 16-byte header (`ImplOffset()`) is undefined behaviour in the code. `push` writes the header past the end of the block, and neither the constructor nor `allocate` checks the size. The model only tracks the arithmetic: the usable size `size - 16` wraps modulo 2^64. The overrun itself is not modelled.
- BlockPool.AllocatePreservesValid: requires fewer than 2^64 - 1 used blocks, because beyond that `++size_` would wrap and the count would no longer equal the number of used blocks.
- AllocatorTraits.ArrayFallsBackToNode: `count * size` wraps modulo 2^64 when it overflows, as the unchecked product does. The lemma states exactness only when the product fits.
- SizeClass.PowerOfTwoMeaning: `is_power_of_two` is modelled by its arithmetic meaning (0 or 2^k) rather than the bit trick `(n & (n - 1)) == 0`.
- SizeClass.ILog2Loop: models the non-GNU loop on a 64-bit `std::size_t`. The `unsigned int` and `unsigned long long` clz overloads are not modelled separately, because `index_from_size` calls the `std::size_t` (`unsigned long`) one.

## Findings

| source | as written | input that shows it | evidently intended | confidence | as-written member | corrected member |
|---|---|---|---|---|---|---|
| src/detail/free_list_array.cpp:65-68 | `size_from_index` returns `1 << index`, a shift of the `int` literal 1, which is undefined once `index` reaches the width of `int` (31 and up for a 32-bit int) | `index_from_size(2^31)` is 31, and `1 << 31` overflows `int` | `std::size_t(1) << index`, defined for every index below 64 | medium; not executed | SizeClass.AsWrittenLosesLargeClasses | SizeClass.SizeFromIndexCoversSize |
| include/foonathan/memory/allocator_traits.hpp:79-97 | the `min_concept` overload of `is_stateful` names `is_stateful_impl<A, std::is_empty<A>::value>::type` in its return type. Substituting it instantiates `is_stateful_impl<A, true>`, whose `static_assert` is a hard error even when `A::is_stateful` exists and the `full_concept` overload would be chosen | an empty allocator without a default constructor that declares `using is_stateful = std::true_type;` | the typedef decides, as the `static_assert`'s own message advises; only a type without the typedef is rejected | medium; not executed | AllocatorTraits.AsWrittenRejectsDeclaredStateful | AllocatorTraits.StatefulnessDecision |

=== FILE: allocator_storage.dfy ===
/** allocator_storage<StoragePolicy, Mutex> and its storage policies. The
    storage holds (or finds) an allocator through its policy, and each of the
    seven RawAllocator operations locks the storage's mutex, applies the
    allocator_traits operation to `get_allocator()` with the caller's
    arguments, and unlocks. */
module AllocatorStorage {
  import opened Sizes
  import opened Wrappers
  import opened AllocatorTraits
  import opened Threading

  /** Where an allocator object lives: at an address, or nowhere (a temporary
      built on demand). */
  datatype Ref = Object(addr: nat) | Temporary

  /** An allocator object: its type and its location. */
  datatype Instance = Instance(caps: Capabilities, ref: Ref)

  /** A type the library accepts as a RawAllocator: statefulness is decidable
      and both node operations resolve. Anything else does not compile. */
  predicate IsRawAllocator(caps: Capabilities)
  {
    && IsStateful(caps).Success?
    && (caps.allocateNode || caps.stdAllocate)
    && (caps.deallocateNode || caps.stdDeallocate)
  }

  function Stateful(caps: Capabilities): bool
    requires IsRawAllocator(caps)
  {
    IsStateful(caps).value
  }

  /** detail::reference_storage_impl<A, stateful>: a pointer to the allocator
      when `A` is stateful, nothing when it is stateless. */
  datatype RefImpl = RefImpl(caps: Capabilities, target: Option<nat>) {
    /** get_allocator(): the referenced object, or a default-constructed temporary. */
    function Get(): Instance
    {
      match target
      case Some(addr) => Instance(caps, Object(addr))
      case None => Instance(caps, Temporary)
    }
  }

  /** The three storage policies. */
  datatype Policy =
    | Direct(caps: Capabilities, addr: nat)   // direct_storage: the allocator is embedded at `addr`
    | Reference(impl: RefImpl)                // reference_storage<A>
    | AnyReference(impl: RefImpl)             // reference_storage<any_allocator>: basic_allocator<A> holding a reference_storage_impl

  /** allocator_storage: the policy, the `Mutex` template argument, and the
      mutex_storage base, which holds the mutex actually used (`mutex_for` of
      the stored allocator type). */
  datatype Storage = Storage(policy: Policy, requested: MutexKind, mutex: MutexStorage)

  /** What get_allocator() yields: an allocator object, or for the type-erased
      policy a reference to the erased wrapper. */
  datatype Handle = Concrete(instance: Instance) | Erased(impl: RefImpl)

  function PolicyCaps(p: Policy): Capabilities
  {
    match p
    case Direct(caps, _) => caps
    case Reference(impl) => impl.caps
    case AnyReference(impl) => impl.caps
  }

  /** A reference_storage_impl built for its type: the pointer is there exactly
      for stateful types. */
  predicate RefImplFits(impl: RefImpl)
  {
    IsRawAllocator(impl.caps) && (impl.target.Some? <==> Stateful(impl.caps))
  }

  /** The invariant every constructor establishes. The type-erased wrapper
      declares itself stateful, so it always gets the requested mutex. */
  predicate WellFormed(st: Storage)
  {
    match st.policy
    case Direct(caps, _) => IsRawAllocator(caps) && st.mutex.kind == MutexFor(Stateful(caps), st.requested)
    case Reference(impl) => RefImplFits(impl) && st.mutex.kind == MutexFor(Stateful(impl.caps), st.requested)
    case AnyReference(impl) => RefImplFits(impl) && st.mutex.kind == MutexFor(true, st.requested)
  }

  // ---------------------------------------------------------------------
  // Construction.

  /** reference_storage_impl's constructor: keep the address of a stateful
      allocator (which must be an object, not a temporary), store nothing for
      a stateless one. */
  function MakeRefImpl(inst: Instance): (r: RefImpl)
    requires IsRawAllocator(inst.caps)
    requires Stateful(inst.caps) ==> inst.ref.Object?
    ensures RefImplFits(r) && r.caps == inst.caps
    ensures Stateful(inst.caps) ==> r.Get() == inst
    ensures !Stateful(inst.caps) ==> r.Get() == Instance(inst.caps, Temporary)
  {
    if Stateful(inst.caps) then RefImpl(inst.caps, Some(inst.ref.addr)) else RefImpl(inst.caps, None)
  }

  /** allocator_storage<direct_storage<A>, Mutex> holding the allocator at `addr`. */
  function MakeDirect(caps: Capabilities, addr: nat, m: MutexKind): (st: Storage)
    requires IsRawAllocator(caps)
    ensures WellFormed(st) && !st.mutex.state.Held()
    ensures GetAllocator(st) == Concrete(Instance(caps, Object(addr)))
  {
    Storage(Direct(caps, addr), m, MutexStorage(MutexFor(Stateful(caps), m), FreshMutex()))
  }

  /** allocator_storage<reference_storage<A>, Mutex> over `inst`. */
  function MakeReference(inst: Instance, m: MutexKind): (st: Storage)
    requires IsRawAllocator(inst.caps)
    requires Stateful(inst.caps) ==> inst.ref.Object?
    ensures WellFormed(st) && !st.mutex.state.Held()
    ensures st.policy.Reference? && st.policy.impl == MakeRefImpl(inst)
  {
    Storage(Reference(MakeRefImpl(inst)), m, MutexStorage(MutexFor(Stateful(inst.caps), m), FreshMutex()))
  }

  /** allocator_storage<reference_storage<any_allocator>, Mutex> over `inst`. */
  function MakeAnyReference(inst: Instance, m: MutexKind): (st: Storage)
    requires IsRawAllocator(inst.caps)
    requires Stateful(inst.caps) ==> inst.ref.Object?
    ensures WellFormed(st) && !st.mutex.state.Held()
    ensures st.policy.AnyReference? && st.policy.impl == MakeRefImpl(inst)
    ensures st.mutex.kind == m
  {
    Storage(AnyReference(MakeRefImpl(inst)), m, MutexStorage(m, FreshMutex()))
  }

  /** get_allocator(). */
  function GetAllocator(st: Storage): Handle
  {
    match st.policy
    case Direct(caps, addr) => Concrete(Instance(caps, Object(addr)))
    case Reference(impl) => Concrete(impl.Get())
    case AnyReference(impl) => Erased(impl)
  }

  // ---------------------------------------------------------------------
  // The type-erased wrapper.

  /** The two virtual functions (and the query) that base_allocator funnels the
      seven operations into; a count of 1 stands for a node. */
  datatype Virtual =
    | AllocateImpl(count: Size, size: Size, alignment: Size)
    | DeallocateImpl(ptr: BlockStack.Addr, count: Size, size: Size, alignment: Size)
    | Query(op: Op)

  /** base_allocator's non-virtual members. */
  function ToVirtual(op: Op): Virtual
  {
    match op
    case AllocateNode(size, alignment) => AllocateImpl(1, size, alignment)
    case AllocateArray(count, size, alignment) => AllocateImpl(count, size, alignment)
    case DeallocateNode(ptr, size, alignment) => DeallocateImpl(ptr, 1, size, alignment)
    case DeallocateArray(ptr, count, size, alignment) => DeallocateImpl(ptr, count, size, alignment)
    case MaxNodeSize => Query(MaxNodeSize)
    case MaxArraySize => Query(MaxArraySize)
    case MaxAlignment => Query(MaxAlignment)
  }

  /** basic_allocator's overrides: which operation of the concrete type's
      traits each virtual call ends in. */
  function FromVirtual(v: Virtual): Op
  {
    match v
    case AllocateImpl(count, size, alignment) =>
      if count == 1 then AllocateNode(size, alignment) else AllocateArray(count, size, alignment)
    case DeallocateImpl(ptr, count, size, alignment) =>
      if count == 1 then DeallocateNode(ptr, size, alignment) else DeallocateArray(ptr, count, size, alignment)
    case Query(op) => op
  }

  /** The concrete operation a call through the erased wrapper becomes. */
  function ErasedOp(op: Op): Op
  {
    FromVirtual(ToVirtual(op))
  }

  // ---------------------------------------------------------------------
  // Forwarding.

  /** What a forwarded operation does, in order: the storage's mutex is
      locked, the operation reaches an allocator object, the mutex is unlocked. */
  datatype Event = Locked | Reached(target: Instance, effect: Effect) | Unlocked

  datatype Forwarded = Forwarded(events: seq<Event>, result: Effect)

  /** The allocator object an operation ends up at, and what it does there. */
  function Dispatch(st: Storage, op: Op): (r: (Instance, Effect))
    requires WellFormed(st)
  {
    match st.policy
    case Direct(caps, addr) =>
      NodeOperationsSuffice(caps, op);
      (Instance(caps, Object(addr)), Apply(caps, op).value)
    case Reference(impl) =>
      NodeOperationsSuffice(impl.caps, op);
      (impl.Get(), Apply(impl.caps, op).value)
    case AnyReference(impl) =>
      NodeOperationsSuffice(impl.caps, ErasedOp(op));
      (impl.Get(), Apply(impl.caps, ErasedOp(op)).value)
  }

  /** Wrapping `inner` in a lock_guard of the given mutex type; `no_mutex`
      leaves no trace. */
  function Guarded(m: MutexKind, inner: Event): seq<Event>
  {
    match m
    case NoMutex => [inner]
    case RealMutex => [Locked, inner, Unlocked]
  }

  /** allocate_node, allocate_array, deallocate_node, deallocate_array,
      max_node_size, max_array_size and max_alignment of allocator_storage. */
  function Forward(st: Storage, op: Op): (r: Forwarded)
    requires WellFormed(st)
    ensures |r.events| == (if st.mutex.kind == RealMutex then 3 else 1)
    ensures Reached(Target(st), r.result) in r.events
    ensures st.mutex.kind == RealMutex ==> r.events[0] == Locked && r.events[2] == Unlocked
  {
    var (target, effect) := Dispatch(st, op);
    Forwarded(Guarded(st.mutex.kind, Reached(target, effect)), effect)
  }

  /** The object get_allocator() designates (for the erased policy, the object
      behind the wrapper). */
  function Target(st: Storage): Instance
  {
    match GetAllocator(st)
    case Concrete(inst) => inst
    case Erased(impl) => impl.Get()
  }

  /** Replaying a forwarded call's events on the storage's mutex. */
  function Replay(events: seq<Event>, m: MutexKind, s: MutexState): MutexState
  {
    if |events| == 0 then s
    else
      var s' := match events[0]
        case Locked => Lock(m, s)
        case Unlocked => Unlock(m, s)
        case Reached(_, _) => s;
      Replay(events[1..], m, s')
  }

  // ---------------------------------------------------------------------
  // Copying, cross-policy construction, and the lock view.

  /** The copy constructor. The mutex is not copied: mutex_storage's copy
      constructor gives the copy a fresh mutex of the same type. A reference
      storage copies the pointer; the erased storage clones its wrapper, which
      rebuilds it from the same referent. direct_storage declares a move
      constructor, so neither it nor an allocator_storage over it can be
      copied. */
  function Copy(st: Storage): (r: Storage)
    requires WellFormed(st) && !st.policy.Direct?
    ensures WellFormed(r) && r.requested == st.requested
    ensures r.mutex.kind == st.mutex.kind && !r.mutex.state.Held()
    ensures Target(r) == Target(st)
  {
    match st.policy
    case Reference(impl) => st.(mutex := CopyMutexStorage(st.mutex))
    case AnyReference(impl) => st.(policy := AnyReference(Clone(impl)), mutex := CopyMutexStorage(st.mutex))
  }

  /** basic_allocator::clone: placement-construct a wrapper from `get()`. */
  function Clone(impl: RefImpl): (r: RefImpl)
    requires RefImplFits(impl)
    ensures RefImplFits(r) && r.Get() == impl.Get()
  {
    MakeRefImpl(impl.Get())
  }

  /** The policy a cross-policy construction targets. */
  datatype PolicyChoice = ToReference | ToAnyReference

  /** allocator_storage(const allocator_storage<OtherPolicy, Mutex>&): build the
      new policy from `other.get_allocator()`, keeping the `Mutex` argument.
      From an erased storage only another erased storage can be built (from the
      wrapper, by cloning). `other` is const, so a direct storage hands out a
      `const A&`: the reference policy needs a mutable reference to a stateful
      `A`, and the erased one cannot bind it either, so only a stateless direct
      storage converts. The new storage has a mutex of its own. */
  function Convert(other: Storage, to: PolicyChoice): (r: Storage)
    requires WellFormed(other)
    requires other.policy.AnyReference? ==> to == ToAnyReference
    requires other.policy.Direct? ==> !Stateful(other.policy.caps)
    ensures WellFormed(r) && r.requested == other.requested && !r.mutex.state.Held()
    ensures to == ToReference ==> r.policy.Reference?
    ensures to == ToAnyReference ==> r.policy.AnyReference?
  {
    match GetAllocator(other)
    case Concrete(inst) =>
      (if to == ToReference then MakeReference(inst, other.requested) else MakeAnyReference(inst, other.requested))
    case Erased(impl) => Storage(AnyReference(Clone(impl)), other.requested, MutexStorage(other.requested, FreshMutex()))
  }

  /** lock(): a locked_allocator over get_allocator(), which locks the
      storage's mutex. It only compiles when get_allocator() is not a
      temporary. */
  function LockView(st: Storage): (r: Acquired<Handle>)
    requires WellFormed(st)
    requires GetAllocator(st).Concrete? ==> GetAllocator(st).instance.ref.Object?
    ensures Deref(r.handle) == Success(GetAllocator(st))
    ensures r.handle.ownsLock
    ensures st.mutex.kind == RealMutex ==> r.mutex == MutexState(st.mutex.state.locks + 1, st.mutex.state.unlocks)
  {
    Acquire(GetAllocator(st), st.mutex.kind, st.mutex.state)
  }

  // ---------------------------------------------------------------------
  // Properties.

  /** Every operation reaches the object get_allocator() designates and applies
      the traits operation to it with the caller's arguments, unchanged, and
      returns what that gives; the erased policy funnels the call through its
      node-or-array dispatch first. */
  lemma ForwardAppliesTraits(st: Storage, op: Op)
    requires WellFormed(st)
    ensures !st.policy.AnyReference? ==> Success(Forward(st, op).result) == Apply(PolicyCaps(st.policy), op)
    ensures st.policy.AnyReference? ==> Success(Forward(st, op).result) == Apply(PolicyCaps(st.policy), ErasedOp(op))
    ensures Forward(st, op).events == Guarded(st.mutex.kind, Reached(Target(st), Forward(st, op).result))
  {
  }

  /** Each forwarded operation locks the mutex once and unlocks it once, so the
      mutex ends up exactly as free as it was. */
  lemma {:induction false} ForwardLocksOnce(st: Storage, op: Op, s: MutexState)
    requires WellFormed(st)
    ensures st.mutex.kind == RealMutex ==> Replay(Forward(st, op).events, st.mutex.kind, s) == MutexState(s.locks + 1, s.unlocks + 1)
    ensures st.mutex.kind == NoMutex ==> Replay(Forward(st, op).events, st.mutex.kind, s) == s
  {
    var ev := Forward(st, op).events;
    var m := st.mutex.kind;
    if m == RealMutex {
      var s1 := Lock(m, s);
      assert Replay(ev, m, s) == Replay(ev[1..], m, s1);
      assert Replay(ev[1..], m, s1) == Replay(ev[2..], m, s1) by { assert ev[1..][1..] == ev[2..]; }
      assert Replay(ev[2..], m, s1) == Replay([], m, Unlock(m, s1)) by { assert ev[2..][1..] == []; }
    } else {
      assert ev[1..] == [];
    }
  }

  /** A stateless allocator held directly or by reference gets `no_mutex`: the
      call takes no lock whatever mutex was requested. */
  lemma StatelessNeedsNoLock(st: Storage, op: Op)
    requires WellFormed(st) && !st.policy.AnyReference?
    requires !Stateful(PolicyCaps(st.policy))
    ensures Forward(st, op).events == [Reached(Target(st), Forward(st, op).result)]
  {
  }

  /** The erased wrapper declares itself stateful, so an erased storage locks
      the requested mutex even around a stateless allocator. */
  lemma ErasedAlwaysLocks(inst: Instance, op: Op)
    requires IsRawAllocator(inst.caps) && !Stateful(inst.caps)
    ensures Forward(MakeAnyReference(inst, RealMutex), op).events[0] == Locked
  {
  }

  /** The erased dispatch: node calls stay node calls, array calls with a count
      of 1 become node calls, other array calls stay array calls, and the
      three queries go to the matching query. */
  lemma ErasedRouting(op: Op)
    ensures op.AllocateNode? || op.DeallocateNode? || op.MaxNodeSize? || op.MaxArraySize? || op.MaxAlignment? ==>
      ErasedOp(op) == op
    ensures op.AllocateArray? ==>
      ErasedOp(op) == (if op.count == 1 then AllocateNode(op.size, op.alignment) else op)
    ensures op.DeallocateArray? ==>
      ErasedOp(op) == (if op.count == 1 then DeallocateNode(op.ptr, op.size, op.alignment) else op)
    ensures ErasedOp(ErasedOp(op)) == ErasedOp(op)
  {
  }

  /** When the concrete type has no array member, routing a count-1 array call
      to the node operation is invisible: it is what the traits fallback does
      anyway. */
  lemma ErasedRoutingInvisibleWithoutArrayMembers(caps: Capabilities, op: Op)
    requires !caps.allocateArray && !caps.deallocateArray
    ensures Apply(caps, ErasedOp(op)) == Apply(caps, op)
  {
  }

  /** A stateful reference storage stores the address and returns that very
      object; a stateless one stores nothing and returns a default-constructed
      temporary every time, so any two are interchangeable. */
  lemma ReferenceStorageTargets(inst: Instance, other: Instance, m: MutexKind)
    requires IsRawAllocator(inst.caps)
    requires Stateful(inst.caps) ==> inst.ref.Object?
    ensures Stateful(inst.caps) ==> GetAllocator(MakeReference(inst, m)) == Concrete(inst)
    ensures !Stateful(inst.caps) ==> GetAllocator(MakeReference(inst, m)) == Concrete(Instance(inst.caps, Temporary))
    ensures !Stateful(inst.caps) && other.caps == inst.caps ==>
      GetAllocator(MakeReference(other, m)) == GetAllocator(MakeReference(inst, m))
  {
  }

  /** A copy of a reference storage, and a clone of an erased one, forwards
      every operation to the same object with the same effect, under the same
      kind of mutex, as the original. */
  lemma CopyForwardsAlike(st: Storage, op: Op)
    requires WellFormed(st) && !st.policy.Direct?
    ensures Forward(Copy(st), op) == Forward(st, op)
  {
  }

  /** A storage built from another one through the cross-policy constructor
      reaches the same object when the allocator type is stateful, and an
      object of the same type otherwise (a stateless reference stores nothing
      and builds a temporary). A reference storage built that way behaves
      exactly like the original (apart from the mutex, which `mutex_for`
      selects anew); an erased one behaves like the original on the operation
      after the erased dispatch. */
  lemma ConvertKeepsTarget(other: Storage, to: PolicyChoice, op: Op)
    requires WellFormed(other)
    requires other.policy.AnyReference? ==> to == ToAnyReference
    requires other.policy.Direct? ==> !Stateful(other.policy.caps)
    ensures Target(Convert(other, to)).caps == Target(other).caps
    ensures Stateful(Target(other).caps) ==> Target(Convert(other, to)) == Target(other)
    ensures to == ToReference ==> Forward(Convert(other, to), op).result == Forward(other, op).result
    ensures to == ToAnyReference ==> Forward(Convert(other, to), op).result == Forward(other, ErasedOp(op)).result
  {
  }

  /** The lock view is a locked_allocator: the storage's mutex is taken once
      and given back once however often the view is moved, so a mutex nobody
      held is free again afterwards. */
  lemma LockViewUnlocksOnce(st: Storage, moves: nat)
    requires WellFormed(st) && st.mutex.kind == RealMutex
    requires GetAllocator(st).Concrete? ==> GetAllocator(st).instance.ref.Object?
    ensures var acq := LockView(st);
      var final := ReleaseAll(MoveChain(acq.handle, moves), RealMutex, acq.mutex);
      && final == MutexState(st.mutex.state.locks + 1, st.mutex.state.unlocks + 1)
      && (!st.mutex.state.Held() ==> !final.Held())
  {
    var acq := LockView(st);
    MoveChainUnlocksOnce(acq.handle, moves, acq.mutex);
  }
}

=== FILE: allocator_traits.dfy ===
/** allocator_traits: what each of the seven RawAllocator operations means for
    an allocator type that supplies only some of them. Overload ranking picks
    a member function when the type has one (full concept), then the generic
    fallback (min concept), then the std-allocator style `allocate`/`deallocate`
    (std concept), and otherwise the program does not compile (error). */
module AllocatorTraits {
  import opened Sizes
  import opened Wrappers
  import opened BlockStack

  /** detail::max_alignment, `alignof(std::max_align_t)`: 16 on the LP64 ABIs. */
  const DefaultMaxAlignment: Size := 16

  /** What an allocator type declares. */
  datatype Capabilities = Capabilities(
    isStatefulTypedef: Option<bool>,  // a nested `is_stateful` type, if any
    isEmpty: bool,                    // std::is_empty
    defaultConstructible: bool,
    allocateNode: bool,               // void* allocate_node(size, alignment)
    deallocateNode: bool,             // void deallocate_node(ptr, size, alignment)
    allocateArray: bool,              // void* allocate_array(count, size, alignment)
    deallocateArray: bool,            // void deallocate_array(ptr, count, size, alignment)
    stdAllocate: bool,                // allocate(size), as a std-style allocator has
    stdDeallocate: bool,              // deallocate(ptr, size)
    maxNodeSize: Option<Size>,        // max_node_size() and its value
    maxArraySize: Option<Size>,       // max_array_size() and its value
    maxAlignment: Option<Size>)       // max_alignment() and its value

  /** The seven operations of the RawAllocator interface, with their arguments. */
  datatype Op =
    | AllocateNode(size: Size, alignment: Size)
    | AllocateArray(count: Size, size: Size, alignment: Size)
    | DeallocateNode(ptr: Addr, size: Size, alignment: Size)
    | DeallocateArray(ptr: Addr, count: Size, size: Size, alignment: Size)
    | MaxNodeSize
    | MaxArraySize
    | MaxAlignment

  /** A call that reaches the allocator object: one of its own member
      functions, or a std-style `allocate`/`deallocate`. */
  datatype Call = Member(op: Op) | StdAllocate(n: Size) | StdDeallocate(p: Addr, n: Size)

  /** What applying an operation amounts to: a call on the allocator, or (for
      the three queries) a value. */
  datatype Effect = Invoked(call: Call) | Answered(value: Size)

  /** An instantiation the library rejects at compile time. */
  datatype ConceptError = MissingAllocateNode | MissingDeallocateNode | EmptyButNotDefaultConstructible

  /** Whether the type has its own member function for `op`. */
  predicate HasMember(caps: Capabilities, op: Op)
  {
    match op
    case AllocateNode(_, _) => caps.allocateNode
    case AllocateArray(_, _, _) => caps.allocateArray
    case DeallocateNode(_, _, _) => caps.deallocateNode
    case DeallocateArray(_, _, _, _) => caps.deallocateArray
    case MaxNodeSize => caps.maxNodeSize.Some?
    case MaxArraySize => caps.maxArraySize.Some?
    case MaxAlignment => caps.maxAlignment.Some?
  }

  /** is_stateful as intended: the type's own typedef if it has one; otherwise
      a non-empty type is stateful and an empty one stateless (and must then be
      default-constructible). The rest of the model uses this decision. */
  function IsStateful(caps: Capabilities): Result<bool, ConceptError>
  {
    match caps.isStatefulTypedef
    case Some(b) => Success(b)
    case None =>
      if !caps.isEmpty then Success(true)
      else if caps.defaultConstructible then Success(false)
      else Failure(EmptyButNotDefaultConstructible)
  }

  /** is_stateful as written. The min_concept overload's return type names
      `is_stateful_impl<A, std::is_empty<A>::value>::type`, and substituting it
      instantiates that class, whose static_assert rejects an empty type that
      cannot be default-constructed. That happens while overloads are
      compared, so a nested `is_stateful` typedef does not prevent it. */
  function IsStatefulAsWritten(caps: Capabilities): (r: Result<bool, ConceptError>)
    ensures r.Failure? <==> caps.isEmpty && !caps.defaultConstructible
    ensures r.Success? ==> r == IsStateful(caps)
  {
    if caps.isEmpty && !caps.defaultConstructible then Failure(EmptyButNotDefaultConstructible)
    else IsStateful(caps)
  }

  /** allocate_node: member, else std-style `allocate(size)` (alignment dropped), else error. */
  function AllocateNodeCall(caps: Capabilities, size: Size, alignment: Size): Result<Call, ConceptError>
  {
    if caps.allocateNode then Success(Member(AllocateNode(size, alignment)))
    else if caps.stdAllocate then Success(StdAllocate(size))
    else Failure(MissingAllocateNode)
  }

  /** deallocate_node: member, else std-style `deallocate(ptr, size)`, else error. */
  function DeallocateNodeCall(caps: Capabilities, ptr: Addr, size: Size, alignment: Size): Result<Call, ConceptError>
  {
    if caps.deallocateNode then Success(Member(DeallocateNode(ptr, size, alignment)))
    else if caps.stdDeallocate then Success(StdDeallocate(ptr, size))
    else Failure(MissingDeallocateNode)
  }

  /** allocate_array: member, else allocate_node of `count * size` bytes
      (an unchecked, wrapping `std::size_t` product). */
  function AllocateArrayCall(caps: Capabilities, count: Size, size: Size, alignment: Size): Result<Call, ConceptError>
  {
    if caps.allocateArray then Success(Member(AllocateArray(count, size, alignment)))
    else AllocateNodeCall(caps, Mul(count, size), alignment)
  }

  /** deallocate_array: member, else deallocate_node of `count * size` bytes. */
  function DeallocateArrayCall(caps: Capabilities, ptr: Addr, count: Size, size: Size, alignment: Size): Result<Call, ConceptError>
  {
    if caps.deallocateArray then Success(Member(DeallocateArray(ptr, count, size, alignment)))
    else DeallocateNodeCall(caps, ptr, Mul(count, size), alignment)
  }

  /** max_node_size: member, else `std::size_t(-1)`. */
  function MaxNodeSizeOf(caps: Capabilities): Size
  {
    match caps.maxNodeSize
    case Some(v) => v
    case None => SizeMax
  }

  /** max_array_size: member, else whatever max_node_size resolves to. */
  function MaxArraySizeOf(caps: Capabilities): Size
  {
    match caps.maxArraySize
    case Some(v) => v
    case None => MaxNodeSizeOf(caps)
  }

  /** max_alignment: member, else detail::max_alignment. */
  function MaxAlignmentOf(caps: Capabilities): Size
  {
    match caps.maxAlignment
    case Some(v) => v
    case None => DefaultMaxAlignment
  }

  /** allocator_traits<A>::op(state, args...). */
  function Apply(caps: Capabilities, op: Op): Result<Effect, ConceptError>
  {
    match op
    case AllocateNode(size, alignment) => Invoke(AllocateNodeCall(caps, size, alignment))
    case AllocateArray(count, size, alignment) => Invoke(AllocateArrayCall(caps, count, size, alignment))
    case DeallocateNode(ptr, size, alignment) => Invoke(DeallocateNodeCall(caps, ptr, size, alignment))
    case DeallocateArray(ptr, count, size, alignment) => Invoke(DeallocateArrayCall(caps, ptr, count, size, alignment))
    case MaxNodeSize => Success(Answered(MaxNodeSizeOf(caps)))
    case MaxArraySize => Success(Answered(MaxArraySizeOf(caps)))
    case MaxAlignment => Success(Answered(MaxAlignmentOf(caps)))
  }

  function Invoke(c: Result<Call, ConceptError>): Result<Effect, ConceptError>
  {
    match c
    case Success(call) => Success(Invoked(call))
    case Failure(e) => Failure(e)
  }

  /** The answer a type's own query member gives. */
  function MemberAnswer(caps: Capabilities, op: Op): Size
    requires op.MaxNodeSize? || op.MaxArraySize? || op.MaxAlignment?
    requires HasMember(caps, op)
  {
    match op
    case MaxNodeSize => caps.maxNodeSize.value
    case MaxArraySize => caps.maxArraySize.value
    case MaxAlignment => caps.maxAlignment.value
  }

  // ---------------------------------------------------------------------
  // Properties.

  /** A member function always wins over every fallback: the operation is
      passed to it with unchanged arguments (queries return its value). */
  lemma MemberTakesPriority(caps: Capabilities, op: Op)
    requires HasMember(caps, op)
    ensures op.MaxNodeSize? || op.MaxArraySize? || op.MaxAlignment? ==>
      Apply(caps, op) == Success(Answered(MemberAnswer(caps, op)))
    ensures !(op.MaxNodeSize? || op.MaxArraySize? || op.MaxAlignment?) ==>
      Apply(caps, op) == Success(Invoked(Member(op)))
  {
  }

  /** Without a member allocate_array, an array request of (count, size,
      alignment) is exactly the node request of `count * size` bytes; the
      product is exact whenever it fits in `std::size_t`. */
  lemma ArrayFallsBackToNode(caps: Capabilities, count: Size, size: Size, alignment: Size)
    requires !caps.allocateArray
    ensures Apply(caps, AllocateArray(count, size, alignment)) == Apply(caps, AllocateNode(Mul(count, size), alignment))
    ensures count * size < SizeModulus ==>
      Apply(caps, AllocateArray(count, size, alignment)) == Apply(caps, AllocateNode(count * size, alignment))
  {
  }

  /** Without a member deallocate_array, the release is deallocate_node of
      `count * size` bytes. */
  lemma ArrayReleaseFallsBackToNode(caps: Capabilities, ptr: Addr, count: Size, size: Size, alignment: Size)
    requires !caps.deallocateArray
    ensures Apply(caps, DeallocateArray(ptr, count, size, alignment)) == Apply(caps, DeallocateNode(ptr, Mul(count, size), alignment))
    ensures count * size < SizeModulus ==>
      Apply(caps, DeallocateArray(ptr, count, size, alignment)) == Apply(caps, DeallocateNode(ptr, count * size, alignment))
  {
  }

  /** A std-style allocator serves a node with `allocate(size)` and releases it
      with `deallocate(ptr, size)`: the alignment is not passed on, so any two
      alignments give the same call. */
  lemma StdStyleIgnoresAlignment(caps: Capabilities, ptr: Addr, size: Size, a1: Size, a2: Size)
    requires !caps.allocateNode && caps.stdAllocate
    requires !caps.deallocateNode && caps.stdDeallocate
    ensures Apply(caps, AllocateNode(size, a1)) == Apply(caps, AllocateNode(size, a2)) == Success(Invoked(StdAllocate(size)))
    ensures Apply(caps, DeallocateNode(ptr, size, a1)) == Apply(caps, DeallocateNode(ptr, size, a2))
         == Success(Invoked(StdDeallocate(ptr, size)))
  {
  }

  /** A type with neither allocate_node nor allocate is rejected, as is one with
      neither deallocate_node nor deallocate; an array operation without its own
      member is rejected exactly when its node fallback is. */
  lemma MissingOperationsAreRejected(caps: Capabilities, ptr: Addr, count: Size, size: Size, alignment: Size)
    ensures Apply(caps, AllocateNode(size, alignment)).Failure? <==> !caps.allocateNode && !caps.stdAllocate
    ensures Apply(caps, DeallocateNode(ptr, size, alignment)).Failure? <==> !caps.deallocateNode && !caps.stdDeallocate
    ensures Apply(caps, AllocateArray(count, size, alignment)).Failure? <==>
      !caps.allocateArray && !caps.allocateNode && !caps.stdAllocate
    ensures Apply(caps, DeallocateArray(ptr, count, size, alignment)).Failure? <==>
      !caps.deallocateArray && !caps.deallocateNode && !caps.stdDeallocate
  {
  }

  /** The query defaults: max_node_size is `std::size_t(-1)`, max_array_size is
      the resolved max_node_size, max_alignment is detail::max_alignment. */
  lemma QueryDefaults(caps: Capabilities)
    ensures caps.maxNodeSize.None? ==> Apply(caps, MaxNodeSize) == Success(Answered(SizeMax))
    ensures caps.maxArraySize.None? ==> Apply(caps, MaxArraySize) == Apply(caps, MaxNodeSize)
    ensures caps.maxArraySize.None? && caps.maxNodeSize.None? ==> Apply(caps, MaxArraySize) == Success(Answered(SizeMax))
    ensures caps.maxAlignment.None? ==> Apply(caps, MaxAlignment) == Success(Answered(DefaultMaxAlignment))
  {
  }

  /** Statefulness: an explicit typedef wins; otherwise it is decided by
      emptiness, and an empty type that cannot be default-constructed is rejected. */
  lemma StatefulnessDecision(caps: Capabilities)
    ensures caps.isStatefulTypedef.Some? ==> IsStateful(caps) == Success(caps.isStatefulTypedef.value)
    ensures caps.isStatefulTypedef.None? ==>
      (IsStateful(caps) == Success(true) <==> !caps.isEmpty)
    ensures caps.isStatefulTypedef.None? ==>
      (IsStateful(caps) == Success(false) <==> caps.isEmpty && caps.defaultConstructible)
  {
  }

  /** The written and the intended decision differ exactly on an empty type
      that cannot be default-constructed but declares `is_stateful` itself:
      the static_assert's own advice (declare the typedef) does not help. */
  lemma AsWrittenTypedefCannotRescue(caps: Capabilities)
    ensures IsStatefulAsWritten(caps) != IsStateful(caps) <==>
      caps.isStatefulTypedef.Some? && caps.isEmpty && !caps.defaultConstructible
  {
  }

  /** A concrete instance: an empty allocator without a default constructor
      that declares `is_stateful = std::true_type`. */
  lemma AsWrittenRejectsDeclaredStateful()
    ensures var caps := Capabilities(Some(true), true, false, true, true, false, false, false, false, None, None, None);
      && IsStatefulAsWritten(caps) == Failure(EmptyButNotDefaultConstructible)
      && IsStateful(caps) == Success(true)
  {
  }

  /** Every operation on a type that supplies the two node operations resolves. */
  lemma NodeOperationsSuffice(caps: Capabilities, op: Op)
    requires caps.allocateNode || caps.stdAllocate
    requires caps.deallocateNode || caps.stdDeallocate
    ensures Apply(caps, op).Success?
    ensures (op.AllocateNode? || op.AllocateArray? || op.DeallocateNode? || op.DeallocateArray?) <==>
      Apply(caps, op).value.Invoked?
  {
  }
}

=== FILE: block_pool.dfy ===
/** block_list<RawAllocator>: a pool of memory blocks obtained from an
    upstream allocator. Blocks in use sit on the `used` stack, blocks given
    back are cached on the `free` stack and reused before anything new is
    requested, and each brand-new request is twice as large as the previous
    one. Every call into the upstream allocator is recorded in `upstream`. */
module BlockPool {
  import opened Sizes
  import opened Wrappers
  import Errors
  import opened BlockStack

  /** growth_factor. */
  const GrowthFactor: Size := 2

  /** A call into the upstream allocator. Both go through the array interface
      with the block's total size as the count, an element size of 1 and
      maximal alignment; `size` is that total size. */
  datatype Event = Allocated(at: Addr, size: Size) | Released(at: Addr, size: Size)

  /** The pool's state: the two stacks, `size_` and `cur_block_size_`, and the
      log of upstream calls made so far. */
  datatype Pool = Pool(used: BlockList, free: BlockList, count: Size, curBlockSize: Size, upstream: seq<Event>)

  /** What the upstream allocator does with a request: hand out memory at an
      address, or raise (out of memory, bad size, or whatever it throws). */
  datatype Upstream = Granted(memory: Addr) | Raised(signal: Errors.Signal)

  datatype Acquired = Acquired(pool: Pool, block: BlockInfo)

  // ---------------------------------------------------------------------
  // The upstream log as multisets of blocks.

  function Allocations(log: seq<Event>): multiset<Node>
  {
    if |log| == 0 then multiset{}
    else
      var e := log[|log| - 1];
      Allocations(log[..|log| - 1]) + if e.Allocated? then multiset{Node(e.at, e.size)} else multiset{}
  }

  function Releases(log: seq<Event>): multiset<Node>
  {
    if |log| == 0 then multiset{}
    else
      var e := log[|log| - 1];
      Releases(log[..|log| - 1]) + if e.Released? then multiset{Node(e.at, e.size)} else multiset{}
  }

  lemma LogAppend(log: seq<Event>, e: Event)
    ensures Allocations(log + [e]) == Allocations(log) + if e.Allocated? then multiset{Node(e.at, e.size)} else multiset{}
    ensures Releases(log + [e]) == Releases(log) + if e.Released? then multiset{Node(e.at, e.size)} else multiset{}
  {
  }

  /** The pool's bookkeeping invariant: `size_` counts the used blocks, and
      every block obtained upstream is either released again or held on
      exactly one of the two stacks. */
  predicate Valid(p: Pool)
  {
    && p.count == |p.used.nodes|
    && Allocations(p.upstream) == Releases(p.upstream) + multiset(p.used.nodes) + multiset(p.free.nodes)
  }

  // ---------------------------------------------------------------------
  // Operations.

  /** The constructor: nothing allocated yet, first request will be `blockSize`. */
  function New(blockSize: Size): (p: Pool)
    ensures Valid(p) && p.used.Empty() && p.free.Empty() && p.curBlockSize == blockSize && p.upstream == []
  {
    Pool(NewList(), NewList(), 0, blockSize, [])
  }

  /** allocate(): reuse the most recently cached block if there is one, with no
      upstream call; otherwise request `cur_block_size_` bytes upstream, put a
      header in front, and double the size for the next miss. A raise from the
      upstream allocator propagates and leaves the pool as it was. */
  function Allocate(p: Pool, reply: Upstream): (r: Result<Acquired, Errors.Signal>)
    ensures p.free.Empty() && reply.Raised? ==> r == Failure(reply.signal)
    ensures p.free.Empty() && reply.Granted? ==>
      && r.Success?
      && r.value.pool.upstream == p.upstream + [Allocated(reply.memory, p.curBlockSize)]
      && r.value.block == BlockInfo(reply.memory.Plus(ImplOffset()), Sub(p.curBlockSize, ImplOffset()))
      && r.value.pool.curBlockSize == Mul(p.curBlockSize, GrowthFactor)
      && !r.value.pool.used.Empty()
      && r.value.pool.used.Head() == Node(reply.memory, p.curBlockSize)
      && r.value.pool.used.Below() == p.used
      && r.value.pool.free == p.free
    ensures !p.free.Empty() ==>
      && r.Success?
      && r.value.pool.upstream == p.upstream
      && r.value.pool.curBlockSize == p.curBlockSize
      && !r.value.pool.used.Empty()
      && r.value.pool.used.Head() == p.free.Head()
      && r.value.pool.used.Below() == p.used
      && r.value.pool.free == p.free.Below()
      && r.value.block == Usable(p.free.Head())
    ensures r.Success? ==> r.value.pool.count == Add(p.count, 1)
    ensures r.Success? ==> Top(r.value.pool.used) == Success(r.value.block)
  {
    match Transfer(p.used, p.free)
    case Success(t) =>
      Success(Acquired(p.(used := t.list, free := t.other, count := Add(p.count, 1)), t.block))
    case Failure(_) =>
      match reply
      case Raised(signal) => Failure(signal)
      case Granted(memory) =>
        var pushed := Push(p.used, memory, p.curBlockSize);
        var size := Sub(p.curBlockSize, pushed.overhead);
        var p' := p.(used := pushed.list, count := Add(p.count, 1),
                     curBlockSize := Mul(p.curBlockSize, GrowthFactor),
                     upstream := p.upstream + [Allocated(memory, p.curBlockSize)]);
        Success(Acquired(p', BlockInfo(pushed.memory, size)))
  }

  /** deallocate(): move the most recent used block onto the free stack. Nothing
      is released upstream. With no used block the "stack underflow" assertion fails. */
  function Deallocate(p: Pool): (r: Result<Pool, Errors.Assertion>)
    ensures r.Failure? <==> p.used.Empty()
    ensures r.Success? ==>
      && r.value.upstream == p.upstream
      && r.value.curBlockSize == p.curBlockSize
      && r.value.count == Sub(p.count, 1)
      && r.value.used == p.used.Below()
      && !r.value.free.Empty()
      && r.value.free.Head() == p.used.Head()
      && r.value.free.Below() == p.free
  {
    match Transfer(p.free, p.used)
    case Failure(e) => Failure(e)
    case Success(t) => Success(p.(used := t.other, free := t.list, count := Sub(p.count, 1)))
  }

  /** top(): the most recently allocated block, as allocate() returned it. */
  function PoolTop(p: Pool): (r: Result<BlockInfo, Errors.Assertion>)
    ensures r.Failure? <==> p.used.Empty()
    ensures r.Success? ==> r.value == Usable(p.used.Head())
  {
    Top(p.used)
  }

  /** next_block_size(): the usable size the next cache miss will return. */
  function NextBlockSize(p: Pool): Size
  {
    Sub(p.curBlockSize, ImplOffset())
  }

  /** size(). */
  function PoolSize(p: Pool): Size
  {
    p.count
  }

  /** Pop every block of `l` and release it upstream with the total size it
      was pushed with, head first. */
  function ReleaseAll(l: BlockList, log: seq<Event>): (r: seq<Event>)
    decreases |l.nodes|
    ensures |r| == |log| + |l.nodes| && r[..|log|] == log
    ensures Allocations(r) == Allocations(log)
    ensures Releases(r) == Releases(log) + multiset(l.nodes)
  {
    if l.Empty() then log
    else
      var popped := Pop(l).value;
      var e := Released(popped.block.memory, popped.block.size);
      var r := ReleaseAll(popped.list, log + [e]);
      ReleaseAllStep(l, log, popped.list, e, r);
      r
  }

  lemma ReleaseAllStep(l: BlockList, log: seq<Event>, below: BlockList, e: Event, r: seq<Event>)
    requires !l.Empty() && below == l.Below() && e == Released(l.Head().at, l.Head().size)
    requires |r| == |log| + 1 + |below.nodes| && r[..|log| + 1] == log + [e]
    requires Allocations(r) == Allocations(log + [e])
    requires Releases(r) == Releases(log + [e]) + multiset(below.nodes)
    ensures |r| == |log| + |l.nodes| && r[..|log|] == log
    ensures Allocations(r) == Allocations(log)
    ensures Releases(r) == Releases(log) + multiset(l.nodes)
  {
    assert r[..|log|] == (r[..|log| + 1])[..|log|];
    ReleaseHeadCounts(l, log, e);
  }

  /** Releasing the head of `l` after `log` adds nothing to the allocations
      and exactly that node to the releases, which together with the nodes
      below it makes up the whole list. */
  lemma ReleaseHeadCounts(l: BlockList, log: seq<Event>, e: Event)
    requires !l.Empty() && e == Released(l.Head().at, l.Head().size)
    ensures Allocations(log + [e]) == Allocations(log)
    ensures Releases(log + [e]) + multiset(l.Below().nodes) == Releases(log) + multiset(l.nodes)
  {
    LogAppend(log, e);
    assert l.nodes == l.Below().nodes + [l.Head()];
  }

  /** shrink_to_fit(): release every cached block upstream; the used stack and
      the counters are untouched. */
  function ShrinkToFit(p: Pool): (r: Pool)
    ensures r.free.Empty() && r.used == p.used && r.count == p.count && r.curBlockSize == p.curBlockSize
    ensures |r.upstream| == |p.upstream| + |p.free.nodes| && r.upstream[..|p.upstream|] == p.upstream
    ensures Releases(r.upstream) == Releases(p.upstream) + multiset(p.free.nodes)
    ensures Valid(p) ==> Valid(r)
  {
    p.(free := NewList(), upstream := ReleaseAll(p.free, p.upstream))
  }

  /** The destructor: shrink_to_fit(), then pop and release every used block.
      The result is the complete upstream log. */
  function Destroy(p: Pool): (log: seq<Event>)
    ensures |log| == |p.upstream| + |p.free.nodes| + |p.used.nodes|
    ensures log[..|p.upstream|] == p.upstream
    ensures Valid(p) ==> Allocations(log) == Releases(log)
  {
    var q := ShrinkToFit(p);
    var log := ReleaseAll(q.used, q.upstream);
    assert log[..|p.upstream|] == (log[..|q.upstream|])[..|p.upstream|];
    log
  }

  datatype PoolMoved = PoolMoved(target: Pool, source: Pool)

  /** The move constructor: the new pool takes the stacks, the counters and the
      upstream allocator; the source keeps only `cur_block_size_`. */
  function MovePool(p: Pool): (r: PoolMoved)
    ensures r.target == p
    ensures r.source.used.Empty() && r.source.free.Empty() && r.source.count == 0
    ensures r.source.curBlockSize == p.curBlockSize
  {
    PoolMoved(p, Pool(Move(p.used).source, Move(p.free).source, 0, p.curBlockSize, []))
  }

  // ---------------------------------------------------------------------
  // Properties.

  /** allocate() keeps the invariant (as long as `size_` cannot wrap, which
      would need 2^64 - 1 live blocks). */
  lemma AllocatePreservesValid(p: Pool, reply: Upstream)
    requires Valid(p) && |p.used.nodes| < SizeMax
    ensures Allocate(p, reply).Success? ==> Valid(Allocate(p, reply).value.pool)
  {
    var r := Allocate(p, reply);
    if r.Success? {
      var q := r.value.pool;
      assert q.used.nodes == p.used.nodes + [q.used.Head()];
      if p.free.Empty() {
        LogAppend(p.upstream, Allocated(reply.memory, p.curBlockSize));
      } else {
        assert p.free.nodes == q.free.nodes + [q.used.Head()];
      }
    }
  }

  /** deallocate() keeps the invariant. */
  lemma DeallocatePreservesValid(p: Pool)
    requires Valid(p) && !p.used.Empty()
    ensures Valid(Deallocate(p).value)
  {
    var q := Deallocate(p).value;
    assert p.used.nodes == q.used.nodes + [q.free.Head()];
    assert q.free.nodes == p.free.nodes + [q.free.Head()];
  }

  /** Destruction releases exactly the blocks that were ever obtained, each
      with the size it was requested with: the multiset of upstream frees
      equals the multiset of upstream allocations. */
  lemma DestroyReleasesEverything(p: Pool)
    requires Valid(p)
    ensures Allocations(Destroy(p)) == Releases(Destroy(p))
  {
  }

  /** A block given back and asked for again comes straight from the cache:
      deallocate() followed by allocate() returns the same block with the same
      usable size, makes no upstream call, and restores the pool exactly. */
  lemma DeallocateThenAllocate(p: Pool, reply: Upstream)
    requires !p.used.Empty()
    ensures var q := Deallocate(p).value;
      Allocate(q, reply) == Success(Acquired(p, PoolTop(p).value))
  {
    var q := Deallocate(p).value;
    var a := Allocate(q, reply).value;
    assert a.pool.used.nodes == p.used.nodes;
    assert a.pool.free.nodes == p.free.nodes;
  }

  /** Conversely, a cache hit followed by deallocate() restores the pool. */
  lemma AllocateHitThenDeallocate(p: Pool, reply: Upstream)
    requires !p.free.Empty()
    ensures var a := Allocate(p, reply).value;
      Deallocate(a.pool) == Success(p)
  {
    var a := Allocate(p, reply).value;
    var d := Deallocate(a.pool).value;
    assert d.used.nodes == p.used.nodes;
    assert d.free.nodes == p.free.nodes;
  }

  /** next_block_size() is the usable size of the block the next cache miss returns. */
  lemma NextBlockSizeIsNextMiss(p: Pool, memory: Addr)
    requires p.free.Empty()
    ensures Allocate(p, Granted(memory)).value.block.size == NextBlockSize(p)
  {
  }

  /** Growth from a fresh pool with initial size `b`: the first allocate()
      requests `b` and returns `b - impl_offset()` usable bytes; a second
      brand-new allocate() requests `2b`. */
  lemma GrowthFromFreshPool(b: Size, m1: Addr, m2: Addr)
    requires 2 * b < SizeModulus
    ensures var a1 := Allocate(New(b), Granted(m1)).value;
      && a1.block.size == Sub(b, ImplOffset())
      && NextBlockSize(a1.pool) == Sub(2 * b, ImplOffset())
      && Allocate(a1.pool, Granted(m2)).value.pool.upstream == [Allocated(m1, b), Allocated(m2, 2 * b)]
  {
    var p0 := New(b);
    var a1 := Allocate(p0, Granted(m1)).value;
    assert a1.pool.upstream == [Allocated(m1, b)];
    assert a1.pool.curBlockSize == 2 * b;
    assert a1.pool.free.Empty();
    var a2 := Allocate(a1.pool, Granted(m2)).value;
    assert a2.pool.upstream == a1.pool.upstream + [Allocated(m2, 2 * b)];
  }

  /** The counter moves by one per call: allocate() adds one, deallocate()
      takes one away, and under the invariant it is the number of used blocks. */
  lemma SizeCountsUsedBlocks(p: Pool, reply: Upstream)
    requires Valid(p) && |p.used.nodes| < SizeMax
    ensures Allocate(p, reply).Success? ==> PoolSize(Allocate(p, reply).value.pool) == PoolSize(p) + 1
    ensures !p.used.Empty() ==> PoolSize(Deallocate(p).value) == PoolSize(p) - 1
  {
  }

  /** shrink_to_fit() releases one block per cached block, leaves the used
      stack alone, and doing it twice is the same as doing it once. */
  lemma ShrinkToFitIdempotent(p: Pool)
    ensures ShrinkToFit(ShrinkToFit(p)) == ShrinkToFit(p)
    ensures |ShrinkToFit(p).upstream| - |p.upstream| == |p.free.nodes|
  {
  }

  /** `n` deallocate() calls on a pool with an empty cache succeed, send
      nothing upstream, and move exactly the top `n` used blocks to the cache. */
  lemma {:induction false} DeallocationsOnlyCache(p: Pool, n: nat)
    requires p.free.Empty() && n <= |p.used.nodes|
    ensures DeallocateMany(p, n).Success?
    ensures var q := DeallocateMany(p, n).value;
      && q.upstream == p.upstream
      && |q.free.nodes| == n
      && q.used.nodes == p.used.nodes[..|p.used.nodes| - n]
  {
    if n > 0 {
      DeallocationsOnlyCache(p, n - 1);
      var q := DeallocateMany(p, n - 1).value;
      var l := p.used.nodes;
      assert q.used.nodes == l[..|l| - (n - 1)];
      assert !q.used.Empty();
      var q' := Deallocate(q).value;
      assert DeallocateMany(p, n) == Success(q');
      assert q'.free.nodes == q.free.nodes + [q.used.Head()];
      assert q'.used.nodes == l[..|l| - n];
    }
  }

  /** `n` deallocate() calls on a pool with an empty cache, then
      shrink_to_fit(), release exactly `n` blocks upstream and leave the
      other used blocks in place. */
  lemma ShrinkAfterDeallocations(p: Pool, n: nat)
    requires p.free.Empty() && n <= |p.used.nodes|
    ensures DeallocateMany(p, n).Success?
    ensures var q := ShrinkToFit(DeallocateMany(p, n).value);
      && |q.upstream| == |p.upstream| + n
      && q.upstream[..|p.upstream|] == p.upstream
      && q.used.nodes == p.used.nodes[..|p.used.nodes| - n]
      && q.free.Empty()
  {
    DeallocationsOnlyCache(p, n);
  }

  /** `n` deallocate() calls in a row. */
  function DeallocateMany(p: Pool, n: nat): Result<Pool, Errors.Assertion>
  {
    if n == 0 then Success(p)
    else match DeallocateMany(p, n - 1)
      case Failure(e) => Failure(e)
      case Success(q) => Deallocate(q)
  }

  /** A moved-from pool holds nothing, so destroying it calls nothing upstream;
      the moved-to pool is the original. */
  lemma MovedFromReleasesNothing(p: Pool)
    ensures Destroy(MovePool(p).source) == []
    ensures Valid(p) ==> Valid(MovePool(p).target) && Valid(MovePool(p).source)
  {
  }
}

=== FILE: block_stack.dfy ===
/** block_list_impl: an intrusive LIFO of block headers. Each header sits at
    the front of a caller-supplied memory region and records the region's
    total size and the previous head. The stack never allocates or frees; it
    only records. */
module BlockStack {
  import opened Sizes
  import opened Wrappers
  import Errors

  /** sizeof(block_list_impl::node): one `node*` and one `std::size_t` on LP64. */
  const NodeSize: Size := 16

  /** A memory address: a byte offset inside the region an allocator handed out. */
  datatype Addr = Addr(region: nat, offset: nat) {
    /** Pointer arithmetic `p + n` on a `char*`. */
    function Plus(n: nat): Addr { Addr(region, offset + n) }
  }

  /** A header: where it was written and the total size pushed with it. Its
      `prev` link is the position below it in the stack. */
  datatype Node = Node(at: Addr, size: Size)

  /** block_info: a memory block's start address and its size. */
  datatype BlockInfo = BlockInfo(memory: Addr, size: Size)

  /** The headers from the bottom (index 0) to the head (last). */
  datatype BlockList = BlockList(nodes: seq<Node>) {
    /** empty(): there is no head. */
    predicate Empty() { |nodes| == 0 }

    function Head(): Node
      requires !Empty()
    {
      nodes[|nodes| - 1]
    }

    /** The stack that the head's `prev` pointer designates. */
    function Below(): BlockList
      requires !Empty()
    {
      BlockList(nodes[..|nodes| - 1])
    }
  }

  /** A default-constructed list: no head. */
  function NewList(): (l: BlockList)
    ensures l.Empty()
  {
    BlockList([])
  }

  /** impl_offset(): the room one header takes. */
  function ImplOffset(): (r: Size)
    ensures r == NodeSize && r > 0
  {
    NodeSize
  }

  /** The usable part of a block whose header sits at `n.at`: the address just
      past the header and the total size minus the header (unsigned). */
  function Usable(n: Node): BlockInfo
  {
    BlockInfo(n.at.Plus(NodeSize), Sub(n.size, NodeSize))
  }

  datatype Pushed = Pushed(list: BlockList, memory: Addr, overhead: Size)

  /** push(memory, size): write a header recording `size` at `memory`, make it
      the head, advance the caller's pointer past it and return the header size. */
  function Push(l: BlockList, memory: Addr, size: Size): (r: Pushed)
    ensures !r.list.Empty() && r.list.Head() == Node(memory, size) && r.list.Below() == l
    ensures r.overhead == ImplOffset() && r.memory == memory.Plus(r.overhead)
  {
    var l' := BlockList(l.nodes + [Node(memory, size)]);
    assert l'.Below().nodes == l.nodes;
    Pushed(l', memory.Plus(NodeSize), NodeSize)
  }

  datatype Popped = Popped(list: BlockList, block: BlockInfo)

  /** pop(): detach the head and return its header address with the total size
      that was pushed; on an empty list, the "stack underflow" assertion fails. */
  function Pop(l: BlockList): (r: Result<Popped, Errors.Assertion>)
    ensures r.Failure? <==> l.Empty()
    ensures r.Success? ==>
      && r.value.list == l.Below()
      && r.value.block == BlockInfo(l.Head().at, l.Head().size)
  {
    if l.Empty() then Failure(Errors.AssertionFailed("stack underflow"))
    else Success(Popped(l.Below(), BlockInfo(l.Head().at, l.Head().size)))
  }

  /** top(): the head's usable block (past the header, header size subtracted),
      without detaching it; on an empty list, the assertion fails. */
  function Top(l: BlockList): (r: Result<BlockInfo, Errors.Assertion>)
    ensures r.Failure? <==> l.Empty()
    ensures r.Success? ==> r.value == Usable(l.Head())
  {
    if l.Empty() then Failure(Errors.AssertionFailed("stack underflow"))
    else Success(Usable(l.Head()))
  }

  datatype Transferred = Transferred(list: BlockList, other: BlockList, block: BlockInfo)

  /** push(other): relink the head of `other` as the head of `l` without
      copying it, and return its usable block; on an empty `other`, the
      assertion fails. */
  function Transfer(l: BlockList, other: BlockList): (r: Result<Transferred, Errors.Assertion>)
    ensures r.Failure? <==> other.Empty()
    ensures r.Success? ==>
      && !r.value.list.Empty()
      && r.value.list.Head() == other.Head()
      && r.value.list.Below() == l
      && r.value.other == other.Below()
      && r.value.block == Usable(other.Head())
  {
    if other.Empty() then Failure(Errors.AssertionFailed("stack underflow"))
    else
      var l' := BlockList(l.nodes + [other.Head()]);
      assert l'.Below().nodes == l.nodes;
      Success(Transferred(l', other.Below(), Usable(other.Head())))
  }

  datatype Moved = Moved(target: BlockList, source: BlockList)

  /** The move constructor: the new list takes the head, the source is left empty. */
  function Move(l: BlockList): (r: Moved)
    ensures r.target == l && r.source.Empty()
  {
    Moved(l, NewList())
  }

  // ---------------------------------------------------------------------
  // Properties.

  /** pop undoes push: it gives back the previous list and the header address
      with the total size that was pushed. */
  lemma PopAfterPush(l: BlockList, memory: Addr, size: Size)
    ensures Pop(Push(l, memory, size).list) == Success(Popped(l, BlockInfo(memory, size)))
  {
  }

  /** The stack is LIFO: push A, push B, then two pops yield B and then A and
      leave the original list. */
  lemma Lifo(l: BlockList, a: Addr, sa: Size, b: Addr, sb: Size)
    ensures var l2 := Push(Push(l, a, sa).list, b, sb).list;
      && Pop(l2).Success? && Pop(l2).value.block == BlockInfo(b, sb)
      && Pop(Pop(l2).value.list).Success?
      && Pop(Pop(l2).value.list).value.block == BlockInfo(a, sa)
      && Pop(Pop(l2).value.list).value.list == l
  {
  }

  /** top after push sees the pushed block from the caller's side: it starts
      where push left the caller's pointer and is `size - impl_offset()` long. */
  lemma TopAfterPush(l: BlockList, memory: Addr, size: Size)
    ensures var p := Push(l, memory, size);
      Top(p.list) == Success(BlockInfo(p.memory, Sub(size, p.overhead)))
  {
  }

  /** Transferring a block there and back restores both lists exactly: the
      transfer relinks one header and loses or copies nothing. */
  lemma TransferRoundTrip(l: BlockList, other: BlockList)
    requires !other.Empty()
    ensures var t := Transfer(l, other).value;
      && Transfer(t.other, t.list).Success?
      && Transfer(t.other, t.list).value.list == other
      && Transfer(t.other, t.list).value.other == l
  {
  }

  /** A transfer moves exactly one header: the multiset of headers held by the
      two lists together is unchanged. */
  lemma TransferPreservesHeaders(l: BlockList, other: BlockList)
    requires !other.Empty()
    ensures var t := Transfer(l, other).value;
      multiset(t.list.nodes) + multiset(t.other.nodes) == multiset(l.nodes) + multiset(other.nodes)
  {
    var t := Transfer(l, other).value;
    assert other.nodes == t.other.nodes + [other.Head()];
    assert t.list.nodes == l.nodes + [other.Head()];
  }

  /** A moved-from list is empty, and emptiness means no head to pop or peek. */
  lemma MovedFromIsEmpty(l: BlockList)
    ensures Move(l).source.Empty()
    ensures Pop(Move(l).source).Failure? && Top(Move(l).source).Failure?
  {
  }
}

=== FILE: debugging.dfy ===
/** The process-wide diagnostic handler slots.

    Three slots are defined next to each other in the diagnostics unit (leak,
    invalid pointer, buffer overflow); the two exception classes declare two
    more with the same contract (out of memory, bad allocation size). Every
    slot holds a function pointer that is never null: storing null installs
    the slot's built-in default instead. The atomic exchange of the original is
    modelled as a plain read-modify-write of an immutable registry value. */
module Debugging {

  /** Which slot. */
  datatype Kind = Leak | InvalidPointer | BufferOverflow | OutOfMemory | BadAllocationSize

  /** What a handler does after it has run: return to its caller, abort the
      process, or throw an exception of its own (identified by `exception`;
      the exception handlers may throw one derived from std::bad_alloc). */
  datatype Reaction = Continue | Terminate | Throw(exception: nat)

  /** A handler that can sit in a slot: the slot's built-in default, or a
      user function identified by `id` whose behaviour is `reaction`. */
  datatype Handler = Default | Custom(id: nat, reaction: Reaction)

  /** A handler argument as the setter receives it: possibly a null pointer. */
  datatype HandlerPtr = Null | Fn(handler: Handler)

  /** The five slots. A slot's type is `Handler`, so it can never hold null. */
  datatype Registry = Registry(
    leak: Handler,
    invalidPointer: Handler,
    bufferOverflow: Handler,
    outOfMemory: Handler,
    badAllocationSize: Handler)

  /** Every slot as the program starts: holding its default handler. */
  function Initial(): (r: Registry)
    ensures forall k :: Get(r, k) == Default
  {
    Registry(Default, Default, Default, Default, Default)
  }

  /** get_X(): the handler currently installed in slot `k`. */
  function Get(r: Registry, k: Kind): Handler
  {
    match k
    case Leak => r.leak
    case InvalidPointer => r.invalidPointer
    case BufferOverflow => r.bufferOverflow
    case OutOfMemory => r.outOfMemory
    case BadAllocationSize => r.badAllocationSize
  }

  /** The handler that `set_X(h)` stores: `h` itself, or the default for null. */
  function Installed(h: HandlerPtr): (r: Handler)
    ensures h.Fn? ==> r == h.handler
    ensures h.Null? ==> r == Default
  {
    match h
    case Null => Default
    case Fn(f) => f
  }

  datatype SetResult = SetResult(registry: Registry, previous: Handler)

  /** set_X(h): exchange the slot's handler with `h` (or with the default when
      `h` is null) and return the handler it held before. */
  function Set(r: Registry, k: Kind, h: HandlerPtr): (s: SetResult)
    ensures s.previous == Get(r, k)
    ensures Get(s.registry, k) == Installed(h)
    ensures forall k' :: k' != k ==> Get(s.registry, k') == Get(r, k')
  {
    var f := Installed(h);
    var r' := match k
      case Leak => r.(leak := f)
      case InvalidPointer => r.(invalidPointer := f)
      case BufferOverflow => r.(bufferOverflow := f)
      case OutOfMemory => r.(outOfMemory := f)
      case BadAllocationSize => r.(badAllocationSize := f);
    SetResult(r', Get(r, k))
  }

  /** What a slot's default handler does after logging: the leak handler and
      the two exception handlers return, the invalid-pointer and
      buffer-overflow handlers abort. */
  function DefaultReaction(k: Kind): Reaction
  {
    match k
    case Leak => Continue
    case InvalidPointer => Terminate
    case BufferOverflow => Terminate
    case OutOfMemory => Continue
    case BadAllocationSize => Continue
  }

  /** Calling the handler installed in slot `k`. */
  function Invoke(r: Registry, k: Kind): Reaction
  {
    match Get(r, k)
    case Default => DefaultReaction(k)
    case Custom(_, reaction) => reaction
  }

  /** Storing null and then reading gives the default: a slot is never observed empty. */
  lemma SetNullRestoresDefault(r: Registry, k: Kind)
    ensures Get(Set(r, k, Null).registry, k) == Default
    ensures Invoke(Set(r, k, Null).registry, k) == DefaultReaction(k)
  {
  }

  /** Re-installing the handler that `set_X` returned undoes the call exactly,
      because the returned handler is never null. */
  lemma SetRestore(r: Registry, k: Kind, h: HandlerPtr)
    ensures var s := Set(r, k, h); Set(s.registry, k, Fn(s.previous)).registry == r
  {
  }

  /** After a run of set calls, each slot holds what the last call on that slot
      installed, or its start value when it was never set. */
  lemma {:induction false} LastSetWins(r: Registry, calls: seq<(Kind, HandlerPtr)>, k: Kind)
    ensures Get(SetAll(r, calls), k) == LastInstalled(calls, k, Get(r, k))
  {
    if |calls| > 0 {
      LastSetWins(r, calls[..|calls| - 1], k);
    }
  }

  /** The registry after performing `calls` in order. */
  function SetAll(r: Registry, calls: seq<(Kind, HandlerPtr)>): Registry
  {
    if |calls| == 0 then r
    else Set(SetAll(r, calls[..|calls| - 1]), calls[|calls| - 1].0, calls[|calls| - 1].1).registry
  }

  /** Reference reading of a slot's history: the handler installed by the last
      call naming `k`, or `start` when none does. */
  function LastInstalled(calls: seq<(Kind, HandlerPtr)>, k: Kind, start: Handler): Handler
  {
    if |calls| == 0 then start
    else if calls[|calls| - 1].0 == k then Installed(calls[|calls| - 1].1)
    else LastInstalled(calls[..|calls| - 1], k, start)
  }

  /** The default invalid-pointer and buffer-overflow handlers abort; the
      default leak handler returns normally. */
  lemma DefaultReactions()
    ensures Invoke(Initial(), Leak) == Continue
    ensures Invoke(Initial(), InvalidPointer) == Terminate
    ensures Invoke(Initial(), BufferOverflow) == Terminate
  {
  }
}

=== FILE: errors.dfy ===
/** The failure records raised by allocators and the guard that raises the
    oversized-request failure. A thrown exception becomes a returned `Signal`;
    a failed debug assertion becomes an `Assertion` value. */
module Errors {
  import opened Sizes
  import opened Wrappers
  import Debugging

  /** allocator_info: a borrowed name and an opaque identity pointer (0 stands
      for nullptr, which stateless allocators sometimes use). */
  datatype AllocatorInfo = AllocatorInfo(name: string, allocator: nat)

  /** operator==: identity only, the name is not compared. */
  predicate InfoEqual(a: AllocatorInfo, b: AllocatorInfo)
  {
    a.allocator == b.allocator
  }

  /** operator!=. */
  predicate InfoNotEqual(a: AllocatorInfo, b: AllocatorInfo)
  {
    a.allocator != b.allocator
  }

  /** out_of_memory: the allocator and the amount that could not be obtained. */
  datatype OutOfMemory = OutOfMemory(info_: AllocatorInfo, amount_: Size) {
    function Allocator(): AllocatorInfo { info_ }
    function FailedAllocationSize(): Size { amount_ }
  }

  /** bad_allocation_size: the allocator, the value passed, and the supported upper bound. */
  datatype BadAllocationSize = BadAllocationSize(info_: AllocatorInfo, passed_: Size, supported_: Size) {
    function Allocator(): AllocatorInfo { info_ }
    function PassedValue(): Size { passed_ }
    function SupportedValue(): Size { supported_ }
  }

  /** The exceptions an allocation can raise. */
  datatype AllocationFailure = OutOfMemoryFailure(oom: OutOfMemory) | BadSizeFailure(bad: BadAllocationSize)

  /** How a raise ends: the exception propagates to the caller, the handler
      run by the exception's constructor aborted the process, or that handler
      threw an exception of its own, which propagates instead. */
  datatype Signal = Thrown(failure: AllocationFailure) | Aborted | HandlerThrew(exception: nat)

  /** The signal a raise ends in once the handler has reacted, given the
      exception the raise constructs. */
  function AfterHandler(reaction: Debugging.Reaction, failure: AllocationFailure): (s: Signal)
    ensures s.Thrown? <==> reaction == Debugging.Continue
    ensures s.Aborted? <==> reaction == Debugging.Terminate
    ensures s.HandlerThrew? <==> reaction.Throw?
    ensures s.Thrown? ==> s.failure == failure
    ensures s.HandlerThrew? ==> s.exception == reaction.exception
  {
    match reaction
    case Continue => Thrown(failure)
    case Terminate => Aborted
    case Throw(e) => HandlerThrew(e)
  }

  /** A failed debug assertion (fatal; never a recoverable failure). */
  datatype Assertion = AssertionFailed(message: string)

  /** Constructing and throwing out_of_memory: its constructor first calls the
      registered out-of-memory handler; if that returns, the exception is
      thrown; the handler may instead abort or throw something else. */
  function RaiseOutOfMemory(reg: Debugging.Registry, info: AllocatorInfo, amount: Size): (s: Signal)
    ensures s.Thrown? <==> Debugging.Invoke(reg, Debugging.OutOfMemory) == Debugging.Continue
    ensures s.Aborted? <==> Debugging.Invoke(reg, Debugging.OutOfMemory) == Debugging.Terminate
    ensures s.HandlerThrew? <==> Debugging.Invoke(reg, Debugging.OutOfMemory).Throw?
    ensures s.HandlerThrew? ==> s.exception == Debugging.Invoke(reg, Debugging.OutOfMemory).exception
    ensures s.Thrown? ==>
      && s.failure.OutOfMemoryFailure?
      && s.failure.oom.FailedAllocationSize() == amount
      && s.failure.oom.Allocator() == info
  {
    AfterHandler(Debugging.Invoke(reg, Debugging.OutOfMemory), OutOfMemoryFailure(OutOfMemory(info, amount)))
  }

  /** Constructing and throwing bad_allocation_size, after its handler. */
  function RaiseBadAllocationSize(reg: Debugging.Registry, info: AllocatorInfo, passed: Size, supported: Size): (s: Signal)
    ensures s.Thrown? <==> Debugging.Invoke(reg, Debugging.BadAllocationSize) == Debugging.Continue
    ensures s.Aborted? <==> Debugging.Invoke(reg, Debugging.BadAllocationSize) == Debugging.Terminate
    ensures s.HandlerThrew? <==> Debugging.Invoke(reg, Debugging.BadAllocationSize).Throw?
    ensures s.HandlerThrew? ==> s.exception == Debugging.Invoke(reg, Debugging.BadAllocationSize).exception
    ensures s.Thrown? ==>
      && s.failure.BadSizeFailure?
      && s.failure.bad.PassedValue() == passed
      && s.failure.bad.SupportedValue() == supported
      && s.failure.bad.Allocator() == info
  {
    AfterHandler(Debugging.Invoke(reg, Debugging.BadAllocationSize), BadSizeFailure(BadAllocationSize(info, passed, supported)))
  }

  /** detail::check_allocation_size: raises bad_allocation_size exactly when
      `passed` exceeds `supported`, and does nothing otherwise. */
  function CheckAllocationSize(reg: Debugging.Registry, passed: Size, supported: Size, info: AllocatorInfo): (r: Outcome<Signal>)
    ensures r.Pass? <==> passed <= supported
    ensures r.Fail? ==> r.error == RaiseBadAllocationSize(reg, info, passed, supported)
  {
    if passed > supported then Fail(RaiseBadAllocationSize(reg, info, passed, supported)) else Pass
  }

  /** Equality of allocator_info is equality of identities, whatever the names,
      `!=` is its exact negation, and it is an equivalence relation. */
  lemma InfoEquality(a: AllocatorInfo, b: AllocatorInfo, c: AllocatorInfo, name: string)
    ensures InfoEqual(a, b) <==> a.allocator == b.allocator
    ensures InfoNotEqual(a, b) <==> !InfoEqual(a, b)
    ensures InfoEqual(a, a.(name := name))
    ensures InfoEqual(a, a)
    ensures InfoEqual(a, b) ==> InfoEqual(b, a)
    ensures InfoEqual(a, b) && InfoEqual(b, c) ==> InfoEqual(a, c)
  {
  }

  /** The accessors give back what the constructors received. */
  lemma AccessorsReturnConstructorArguments(info: AllocatorInfo, amount: Size, passed: Size, supported: Size)
    ensures OutOfMemory(info, amount).Allocator() == info
    ensures OutOfMemory(info, amount).FailedAllocationSize() == amount
    ensures BadAllocationSize(info, passed, supported).Allocator() == info
    ensures BadAllocationSize(info, passed, supported).PassedValue() == passed
    ensures BadAllocationSize(info, passed, supported).SupportedValue() == supported
  {
  }

  /** The supported value is an upper bound: a value that passes keeps passing
      when lowered, and a value that fails keeps failing when raised. */
  lemma CheckIsUpperBound(reg: Debugging.Registry, p: Size, q: Size, supported: Size, info: AllocatorInfo)
    requires p <= q
    ensures CheckAllocationSize(reg, q, supported, info).Pass? ==> CheckAllocationSize(reg, p, supported, info).Pass?
    ensures CheckAllocationSize(reg, p, supported, info).Fail? ==> CheckAllocationSize(reg, q, supported, info).Fail?
  {
  }

  /** With the default handler installed, an oversized request is thrown to the
      caller carrying the passed and supported values. */
  lemma DefaultHandlerThrowsBadSize(passed: Size, supported: Size, info: AllocatorInfo)
    requires passed > supported
    ensures CheckAllocationSize(Debugging.Initial(), passed, supported, info)
         == Fail(Thrown(BadSizeFailure(BadAllocationSize(info, passed, supported))))
  {
  }

  /** A handler installed with set_handler that throws its own exception
      replaces the library's: the next raise of that kind propagates the
      handler's exception, and a raise of the other kind is unaffected. */
  lemma ThrowingHandlerReplacesException(reg: Debugging.Registry, id: nat, e: nat, info: AllocatorInfo,
                                         amount: Size, passed: Size, supported: Size)
    ensures var r := Debugging.Set(reg, Debugging.OutOfMemory, Debugging.Fn(Debugging.Custom(id, Debugging.Throw(e)))).registry;
      && RaiseOutOfMemory(r, info, amount) == HandlerThrew(e)
      && RaiseBadAllocationSize(r, info, passed, supported) == RaiseBadAllocationSize(reg, info, passed, supported)
    ensures var r := Debugging.Set(reg, Debugging.BadAllocationSize, Debugging.Fn(Debugging.Custom(id, Debugging.Throw(e)))).registry;
      && RaiseBadAllocationSize(r, info, passed, supported) == HandlerThrew(e)
      && RaiseOutOfMemory(r, info, amount) == RaiseOutOfMemory(reg, info, amount)
  {
  }
}

=== FILE: size_class.dfy ===
/** log2_access_policy: the power-of-two size-class ladder used by segregated
    free lists. `IndexFromSize` is the ceiling of log2 (through `ilog2`), and
    `SizeFromIndex` is the size of a class. */
module SizeClass {
  import opened Sizes
  import opened Wrappers
  import Errors

  /** Width of `int`, the type of the literal `1` that `size_from_index` shifts. */
  const IntBits: nat := 32

  function Pow2(k: nat): (r: nat)
    ensures r >= 1
  {
    if k == 0 then 1 else 2 * Pow2(k - 1)
  }

  /** is_power_of_two: `(no & (no - 1)) == 0`. The bit test holds for zero and
      for exact powers of two, which is what this recursive form says. */
  predicate IsPowerOfTwo(n: nat)
  {
    n == 0 || n == 1 || (n % 2 == 0 && IsPowerOfTwo(n / 2))
  }

  /** Number of significant bits of `n`: the bit width minus its leading zeros. */
  function BitLength(n: nat): nat
  {
    if n == 0 then 0 else 1 + BitLength(n / 2)
  }

  /** __builtin_clzl on a 64-bit `unsigned long`; undefined for zero. */
  function CountLeadingZeros(n: Size): (r: nat)
    requires n != 0
    ensures r < SizeBits
    ensures Pow2(SizeBits - 1 - r) <= n < Pow2(SizeBits - r)
  {
    BitLengthBounds(n);
    BitLengthAtMost64(n);
    SizeBits - BitLength(n)
  }

  /** ilog2, compiler-builtin version:
      `sizeof(no) * CHAR_BIT - clz(no) - is_power_of_two(no)`. */
  function ILog2(n: Size): nat
    requires n != 0
  {
    SizeBits - CountLeadingZeros(n) - (if IsPowerOfTwo(n) then 1 else 0)
  }

  /** ilog2, portable version: start at 0 for a power of two and at 1 otherwise,
      then count how often `no >>= 1` leaves a non-zero value. */
  method ILog2Loop(no: Size) returns (result: nat)
    ensures no != 0 ==> result == ILog2(no)
    ensures no == 0 ==> result == 0
  {
    result := if IsPowerOfTwo(no) then 0 else 1;
    var n: nat := no / 2;
    while n != 0
      invariant no == 0 ==> n == 0 && result == 0
      invariant no != 0 ==> result + BitLength(n) + 1 == BitLength(no) + (if IsPowerOfTwo(no) then 0 else 1)
      decreases n
    {
      result := result + 1;
      n := n / 2;
    }
    if no != 0 {
      BitLengthBounds(no);
      BitLengthAtMost64(no);
    }
  }

  /** index_from_size: the size class of `size`; a zero size is a failed assertion. */
  function IndexFromSize(size: Size): (r: Result<nat, Errors.Assertion>)
    ensures r.Failure? <==> size == 0
    ensures r.Success? ==> size <= Pow2(r.value) && (r.value == 0 || Pow2(r.value - 1) < size)
  {
    if size == 0 then Failure(Errors.AssertionFailed("size must not be zero"))
    else
      ILog2IsCeilLog2(size);
      Success(ILog2(size))
  }

  /** size_from_index as written: `1 << index` on an `int`. The shift is only
      defined (and only a power of two) while the result fits in a signed
      `int`, i.e. for `index < 31`; beyond that the behaviour is undefined. */
  function SizeFromIndexAsWritten(index: nat): (r: Option<Size>)
    ensures r.Some? <==> index < IntBits - 1
  {
    if index < IntBits - 1 then Pow2Below64(index); Some(Pow2(index)) else None
  }

  /** size_from_index as evidently intended, `std::size_t(1) << index`: defined
      for every index below the width of `std::size_t`. */
  function SizeFromIndex(index: nat): (r: Option<Size>)
    ensures r.Some? <==> index < SizeBits
    ensures r.Some? ==> r.value == Pow2(index)
  {
    if index < SizeBits then Pow2Below64(index); Some(Pow2(index)) else None
  }

  // ---------------------------------------------------------------------
  // Arithmetic facts about powers of two and bit lengths.

  lemma {:induction false} Pow2Add(a: nat, b: nat)
    ensures Pow2(a + b) == Pow2(a) * Pow2(b)
  {
    if a > 0 {
      Pow2Add(a - 1, b);
    }
  }

  lemma {:induction false} Pow2Monotone(a: nat, b: nat)
    requires a <= b
    ensures Pow2(a) <= Pow2(b)
  {
    if a < b {
      Pow2Monotone(a, b - 1);
    }
  }

  lemma Pow2Is64BitModulus()
    ensures Pow2(SizeBits) == SizeModulus
  {
    assert Pow2(4) == 16;
    Pow2Add(4, 4);
    assert Pow2(8) == 0x100;
    Pow2Add(8, 8);
    assert Pow2(16) == 0x1_0000;
    Pow2Add(16, 16);
    assert Pow2(32) == 0x1_0000_0000;
    Pow2Add(32, 32);
  }

  lemma Pow2Below64(k: nat)
    requires k < SizeBits
    ensures Pow2(k) < SizeModulus
  {
    Pow2Monotone(k, SizeBits - 1);
    Pow2Is64BitModulus();
    assert Pow2(SizeBits) == 2 * Pow2(SizeBits - 1);
  }

  lemma {:induction false} BitLengthBounds(n: nat)
    requires n != 0
    ensures BitLength(n) >= 1
    ensures Pow2(BitLength(n) - 1) <= n < Pow2(BitLength(n))
  {
    if n > 1 {
      BitLengthBounds(n / 2);
    }
  }

  lemma BitLengthAtMost64(n: Size)
    ensures BitLength(n) <= SizeBits
  {
    if n != 0 {
      BitLengthBounds(n);
      if BitLength(n) > SizeBits {
        Pow2Monotone(SizeBits, BitLength(n) - 1);
        Pow2Is64BitModulus();
        assert false;
      }
    }
  }

  lemma {:induction false} PowerOfTwoIsPow2(n: nat)
    requires n != 0 && IsPowerOfTwo(n)
    ensures n == Pow2(BitLength(n) - 1)
  {
    if n > 1 {
      assert n % 2 == 0 && IsPowerOfTwo(n / 2);
      var h := n / 2;
      assert n == 2 * h;
      PowerOfTwoIsPow2(h);
      assert BitLength(n) == 1 + BitLength(h);
      assert Pow2(BitLength(h)) == 2 * Pow2(BitLength(h) - 1);
    }
  }

  lemma {:induction false} Pow2IsPowerOfTwo(k: nat)
    ensures IsPowerOfTwo(Pow2(k))
  {
    if k > 0 {
      Pow2IsPowerOfTwo(k - 1);
      assert Pow2(k) / 2 == Pow2(k - 1);
    }
  }

  /** The bit test's meaning: a non-zero `n` passes it iff it is an exact power of two. */
  lemma PowerOfTwoMeaning(n: nat, k: nat)
    requires n != 0
    ensures IsPowerOfTwo(n) <==> n == Pow2(BitLength(n) - 1)
    ensures n == Pow2(k) ==> IsPowerOfTwo(n)
  {
    if IsPowerOfTwo(n) {
      PowerOfTwoIsPow2(n);
    } else if n == Pow2(BitLength(n) - 1) {
      Pow2IsPowerOfTwo(BitLength(n) - 1);
    }
    if n == Pow2(k) {
      Pow2IsPowerOfTwo(k);
    }
  }

  // ---------------------------------------------------------------------
  // Properties of the index mapping.

  /** ilog2 is the ceiling of log2: with `r = ilog2(s)`, `2^(r-1) < s <= 2^r`
      (and `r == 0` exactly for `s == 1`). */
  lemma ILog2IsCeilLog2(s: Size)
    requires s != 0
    ensures s <= Pow2(ILog2(s))
    ensures ILog2(s) == 0 || Pow2(ILog2(s) - 1) < s
    ensures ILog2(s) == 0 <==> s == 1
  {
    BitLengthBounds(s);
    BitLengthAtMost64(s);
    PowerOfTwoMeaning(s, 0);
    if BitLength(s) == 1 {
      assert s == 1;
    }
  }

  /** The ceiling-log2 bracket has exactly one solution. */
  lemma CeilLog2Unique(s: nat, r1: nat, r2: nat)
    requires s <= Pow2(r1) && (r1 == 0 || Pow2(r1 - 1) < s)
    requires s <= Pow2(r2) && (r2 == 0 || Pow2(r2 - 1) < s)
    ensures r1 == r2
  {
    if r1 < r2 {
      Pow2Monotone(r1, r2 - 1);
    } else if r2 < r1 {
      Pow2Monotone(r2, r1 - 1);
    }
  }

  /** The shift loop and the leading-zero formula agree on every non-zero input. */
  method ILog2VariantsAgree(no: Size) returns (loop: nat, builtin: nat)
    requires no != 0
    ensures loop == builtin
    ensures no <= Pow2(loop) && (loop == 0 || Pow2(loop - 1) < no)
  {
    loop := ILog2Loop(no);
    builtin := ILog2(no);
    ILog2IsCeilLog2(no);
  }

  /** index_from_size is monotonic non-decreasing in the size. */
  lemma IndexFromSizeMonotone(s1: Size, s2: Size)
    requires 0 < s1 <= s2
    ensures IndexFromSize(s1).value <= IndexFromSize(s2).value
  {
    var r1 := IndexFromSize(s1).value;
    var r2 := IndexFromSize(s2).value;
    if r1 > r2 {
      Pow2Monotone(r2, r1 - 1);
    }
  }

  /** The class of `s` is large enough for `s`, and it fits exactly iff `s` is a
      power of two. Sizes above 2^63 have no class below the width of size_t. */
  lemma SizeFromIndexCoversSize(s: Size)
    requires s != 0
    ensures var i := IndexFromSize(s).value;
      && (SizeFromIndex(i).Some? <==> s <= Pow2(SizeBits - 1))
      && (SizeFromIndex(i).Some? ==> SizeFromIndex(i).value >= s)
      && (SizeFromIndex(i).Some? ==> (SizeFromIndex(i).value == s <==> IsPowerOfTwo(s)))
  {
    var i := IndexFromSize(s).value;
    ILog2IsCeilLog2(s);
    BitLengthBounds(s);
    BitLengthAtMost64(s);
    PowerOfTwoMeaning(s, 0);
    if i < SizeBits {
      Pow2Monotone(i, SizeBits - 1);
    } else {
      assert Pow2(i - 1) < s;
    }
  }

  /** A power of two is the size of its own class: `SizeFromIndex` inverts
      `IndexFromSize` on the ladder. */
  lemma IndexOfPow2(k: nat)
    requires k < SizeBits
    ensures Pow2(k) < SizeModulus
    ensures IndexFromSize(Pow2(k)) == Success(k)
    ensures SizeFromIndex(k) == Some(Pow2(k))
  {
    Pow2Below64(k);
    if k > 0 {
      assert Pow2(k) == 2 * Pow2(k - 1);
    }
    IndexIsCeilLog2(Pow2(k), k);
  }

  /** Any `k` in the ceiling-log2 bracket of `s` is its index. */
  lemma IndexIsCeilLog2(s: Size, k: nat)
    requires s != 0 && s <= Pow2(k) && (k == 0 || Pow2(k - 1) < s)
    ensures IndexFromSize(s) == Success(k)
  {
    var r := IndexFromSize(s).value;
    CeilLog2Unique(s, r, k);
  }

  /** The ladder as documented: ilog2(4) == 2, ilog2(5) == 3, and a few more. */
  lemma IndexExamples()
    ensures IndexFromSize(0).Failure?
    ensures IndexFromSize(1) == Success(0)
    ensures IndexFromSize(2) == Success(1)
    ensures IndexFromSize(3) == Success(2)
    ensures IndexFromSize(4) == Success(2)
    ensures IndexFromSize(5) == Success(3)
    ensures IndexFromSize(1024) == Success(10)
  {
  }

  /** The shift as written breaks the ladder: 2^31 is a valid size whose class
      is 31, but `1 << 31` overflows `int`, so no class size comes back. */
  lemma AsWrittenLosesLargeClasses()
    ensures Pow2(31) < SizeModulus
    ensures IndexFromSize(Pow2(31)) == Success(31)
    ensures SizeFromIndexAsWritten(31).None?
    ensures SizeFromIndex(31) == Some(Pow2(31))
  {
    IndexOfPow2(31);
  }
}

=== FILE: sizes.dfy ===
/** `std::size_t` on the LP64 targets the library is built for: 64 value bits,
    arithmetic modulo 2^64. Every place where the C++ code can wrap uses the
    helpers below so that the wrap is explicit. */
module Sizes {

  const SizeBits: nat := 64
  const SizeModulus: nat := 0x1_0000_0000_0000_0000

  /** `std::size_t(-1)`, the largest value of the type. */
  const SizeMax: nat := 0xFFFF_FFFF_FFFF_FFFF

  type Size = n: nat | n < 0x1_0000_0000_0000_0000

  /** Unsigned subtraction `a - b`; adding `b` back (modulo 2^64) recovers `a`. */
  function Sub(a: Size, b: Size): (r: Size)
    ensures (r + b) % SizeModulus == a
    ensures b <= a ==> r == a - b
  {
    if b <= a then a - b else a - b + SizeModulus
  }

  /** Unsigned addition `a + b`, exact when the sum fits. */
  function Add(a: Size, b: Size): (r: Size)
    ensures a + b < SizeModulus ==> r == a + b
    ensures Sub(r, b) == a
  {
    (a + b) % SizeModulus
  }

  /** Unsigned multiplication `a * b`, exact when the product fits. */
  function Mul(a: Size, b: Size): (r: Size)
    ensures a * b < SizeModulus ==> r == a * b
    ensures a == 1 ==> r == b
  {
    if a == 1 then b
    else
      var product := a * b;
      if product < SizeModulus then product else product % SizeModulus
  }
}

=== FILE: threading.dfy ===
/** Lock selection and lock ownership. A mutex is modelled by the history of
    lock and unlock calls made on it (a sequential bookkeeping view, not
    concurrency); `no_mutex` records nothing. */
module Threading {
  import opened Wrappers
  import Errors

  /** The mutex type in use: the do-nothing `no_mutex`, or a real mutex type. */
  datatype MutexKind = NoMutex | RealMutex

  /** How many times one mutex object has been locked and unlocked. */
  datatype MutexState = MutexState(locks: nat, unlocks: nat) {
    predicate Held() { locks > unlocks }
  }

  /** A mutex object as constructed: never locked. */
  function FreshMutex(): MutexState
  {
    MutexState(0, 0)
  }

  /** detail::mutex_for: stateless allocators need no locking, so they get
      `no_mutex`; stateful ones get the requested mutex type. */
  function MutexFor(isStateful: bool, requested: MutexKind): (m: MutexKind)
    ensures m == RealMutex <==> isStateful && requested == RealMutex
  {
    if isStateful then requested else NoMutex
  }

  function Lock(kind: MutexKind, s: MutexState): MutexState
  {
    match kind
    case NoMutex => s
    case RealMutex => s.(locks := s.locks + 1)
  }

  function Unlock(kind: MutexKind, s: MutexState): MutexState
  {
    match kind
    case NoMutex => s
    case RealMutex => s.(unlocks := s.unlocks + 1)
  }

  /** try_lock: `no_mutex` always succeeds without effect; a real mutex
      succeeds exactly when it is not held, and then it is locked. */
  function TryLock(kind: MutexKind, s: MutexState): (bool, MutexState)
  {
    match kind
    case NoMutex => (true, s)
    case RealMutex => if s.Held() then (false, s) else (true, Lock(kind, s))
  }

  /** A lock/unlock pair leaves the mutex as free as it was, and `no_mutex`'s
      operations change nothing and its try_lock never fails. */
  lemma LockUnlockBalance(kind: MutexKind, s: MutexState)
    ensures Unlock(kind, Lock(kind, s)).Held() == s.Held()
    ensures kind == RealMutex && s.locks >= s.unlocks ==> Lock(kind, s).Held()
    ensures kind == NoMutex ==> Lock(kind, s) == s && Unlock(kind, s) == s && TryLock(kind, s) == (true, s)
  {
  }

  /** detail::mutex_storage: the mutex a storage owns. */
  datatype MutexStorage = MutexStorage(kind: MutexKind, state: MutexState)

  /** The copy constructor does not copy the mutex: the copy gets a mutex of
      its own that nobody holds. (Copy assignment copies nothing either; the
      target keeps its own mutex, whatever its state.) */
  function CopyMutexStorage(source: MutexStorage): (r: MutexStorage)
    ensures r.kind == source.kind && !r.state.Held()
  {
    MutexStorage(source.kind, FreshMutex())
  }

  /** detail::locked_allocator: a pointer to an allocator that keeps a mutex
      locked for as long as it lives. `ownsLock` is "mutex_ is not null". */
  datatype LockedAllocator<A> = LockedAllocator(ownsLock: bool, alloc: Option<A>)

  datatype Acquired<A> = Acquired(handle: LockedAllocator<A>, mutex: MutexState)

  /** The constructor: lock the mutex once and point at the allocator. */
  function Acquire<A>(alloc: A, kind: MutexKind, s: MutexState): (r: Acquired<A>)
    ensures r.handle.ownsLock && r.handle.alloc == Some(alloc)
    ensures kind == RealMutex ==> r.mutex.locks == s.locks + 1 && r.mutex.unlocks == s.unlocks
  {
    Acquired(LockedAllocator(true, Some(alloc)), Lock(kind, s))
  }

  datatype MovedLock<A> = MovedLock(target: LockedAllocator<A>, source: LockedAllocator<A>)

  /** The move constructor: the target takes the mutex and the allocator, the
      source is left pointing at neither. */
  function MoveLock<A>(la: LockedAllocator<A>): (r: MovedLock<A>)
    ensures r.target == la && !r.source.ownsLock && r.source.alloc.None?
  {
    MovedLock(la, LockedAllocator(false, None))
  }

  /** The destructor: unlock only if this object still holds the mutex. */
  function Release<A>(la: LockedAllocator<A>, kind: MutexKind, s: MutexState): MutexState
  {
    if la.ownsLock then Unlock(kind, s) else s
  }

  /** operator* / operator->: the allocator; on a moved-from object the
      assertion on the null pointer fails. */
  function Deref<A>(la: LockedAllocator<A>): (r: Result<A, Errors.Assertion>)
    ensures r.Success? <==> la.alloc.Some?
    ensures r.Success? ==> r.value == la.alloc.value
  {
    match la.alloc
    case Some(a) => Success(a)
    case None => Failure(Errors.AssertionFailed("alloc_"))
  }

  /** Every object that exists over `n` successive moves starting from `la`:
      the moved-from ones in the order they were left behind, then the last
      target. */
  function MoveChain<A>(la: LockedAllocator<A>, n: nat): (r: seq<LockedAllocator<A>>)
    ensures |r| == n + 1
  {
    if n == 0 then [la]
    else
      var m := MoveLock(la);
      [m.source] + MoveChain(m.target, n - 1)
  }

  /** Destroying all objects in order. */
  function ReleaseAll<A>(objects: seq<LockedAllocator<A>>, kind: MutexKind, s: MutexState): MutexState
  {
    if |objects| == 0 then s
    else ReleaseAll(objects[1..], kind, Release(objects[0], kind, s))
  }

  /** Over any chain of moves exactly one object ends up owning the lock, and
      it is the last one; destroying them all unlocks exactly as often as the
      original held the lock. */
  lemma {:induction false} MoveChainUnlocksOnce<A>(la: LockedAllocator<A>, n: nat, s: MutexState)
    ensures var objs := MoveChain(la, n);
      && objs[n] == la
      && (forall i | 0 <= i < n :: !objs[i].ownsLock && objs[i].alloc.None?)
      && ReleaseAll(objs, RealMutex, s).locks == s.locks
      && ReleaseAll(objs, RealMutex, s).unlocks == s.unlocks + (if la.ownsLock then 1 else 0)
  {
    if n > 0 {
      var m := MoveLock(la);
      MoveChainUnlocksOnce(m.target, n - 1, s);
      var objs := MoveChain(la, n);
      assert objs[1..] == MoveChain(m.target, n - 1);
      assert Release(objs[0], RealMutex, s) == s;
    }
  }

  /** lock() on a free mutex, any number of moves, then every object destroyed:
      the mutex was locked once and unlocked once and is free again. */
  lemma LockedAllocatorScope<A>(alloc: A, moves: nat)
    ensures var acq := Acquire(alloc, RealMutex, FreshMutex());
      var final := ReleaseAll(MoveChain(acq.handle, moves), RealMutex, acq.mutex);
      final == MutexState(1, 1) && !final.Held()
  {
  }

  /** A moved-from object cannot be dereferenced; the moved-to one gives the
      same allocator as before. */
  lemma DerefAfterMove<A>(alloc: A)
    ensures var m := MoveLock(LockedAllocator(true, Some(alloc)));
      Deref(m.source).Failure? && Deref(m.target) == Success(alloc)
  {
  }
}

=== FILE: wrappers.dfy ===
/** Failure-carrying return types used where the library raises an exception
    or fails an assertion: the model returns the failure instead. */
module Wrappers {

  datatype Option<+T> = None | Some(value: T)

  datatype Result<+R, +E> = Success(value: R) | Failure(error: E) {
    predicate IsFailure() {
      Failure?
    }
  }

  /** A Pass/Fail result that carries no value on success. */
  datatype Outcome<+E> = Pass | Fail(error: E)
}
